=== FILE: README.md ===
# Realtime subtitle translator: core logic in Dafny

This project models the sequential logic inside a desktop subtitle translator.
Speech is streamed to a realtime recognition-and-translation service. The
service returns incremental results: each result carries the full word list of
the sentence in progress, where each word is marked fixed or still
provisional. The program displays those results as subtitles and can speak the
translation through a streaming text-to-speech service.

There are two programs. `gummy.py` is the service window. It has a
`TranslationService` class that manages threads and a retry ladder.
`gummy_translator.py` is the simpler floating translator. It uses module-level
tasks and keyboard shortcuts. `original/gummy_translator.py` differs from
`gummy_translator.py` only in three widget sizes, so the same Dafny members
model both copies, and a row citing `gummy_translator.py` covers the same
lines of the copy.

Modules (one file each):

- `text.dfy` (`Text`) covers words, incremental results, the fixed/unfixed
  partition of a word list and the language-key derivation
  `code.split('-')[0].lower()`.
- `reconciler.dfy` (`Reconciler`) covers the subtitle buffers.
  - Each result overwrites the tail line with its (fixed, unfixed) partition.
  - A sentence end opens a new empty line.
  - The translator can overwrite the tail once more with a stash.
  - The service window's deques hold at most 20 lines.
  - Also covered: the rendered text and `update_text`.
- `cursor.dfy` (`Cursor`) covers the fixed-word cursor of the recognition
  callback. It turns full-replacement results into a stream of newly fixed
  words, followed by a sentence-end marker, for the speech-synthesis queue.
- `playback.dfy` (`Playback`) regroups the streamed PCM chunks into
  4096-byte device writes plus a remainder.
- `synthesis.dfy` (`Synthesis`) covers the speech-synthesis loop.
  - It batches words into a buffer and decides when to flush.
  - A flushed request carries the pause marker.
  - It models what happens to the buffer when a request is answered, fails,
    or fails during playback.
- `backoff.dfy` (`Backoff`) covers the exception ladder of the recognition
  task: the retry count, the pause and the status report.
- `service.dfy` (`Service`) is the service lifecycle as a state machine.
  - It covers `start`, `stop`, `check_and_restart`, `set_languages` and the
    bounded queue drain `process_queue_safely`.
  - It also covers the language part of the window's `apply_settings`, which
    replaces the capped deques by plain lists.
- `window.dfy` (`Window`) covers the translator window's key handler.
  - Alt+T switches the colour scheme.
  - Alt+Up and Alt+Down step the alpha, clamped to [0, 255], and the
    brightness is 255 - alpha.
  - Alt+S toggles speech synthesis and empties the queue when switching it on.
  - Ctrl+H toggles the title bar.

How the outside world enters the model:

- The recognition service, the HTTP synthesis service and the audio device
  are inputs.
  - Results arrive as `SentenceResult` values.
  - A synthesis request's fate is an `Outcome`: it raised, it was answered
    with a status and a chunk stream, or playback raised after some writes.
  - A recognition pass ends as a clean stop or as one of four failure kinds.
- Thread liveness is a `Worker` record updated by `Service.Observe`.
- Status messages are a log of tags.
- Sleeps and locks are left out.

## Model

| member | source | states |
|---|---|---|
| Text.FixedTextIsSelection | gummy.py:1420 | the fixed part of a line is the in-order concatenation of exactly the fixed words' texts |
| Text.UnfixedTextIsSelection | gummy.py:1421 | the unfixed part is the in-order concatenation of exactly the provisional words' texts |
| Text.PartitionKeepsCharacters | gummy_translator.py:621-627 | the two parts together hold every character of the word list once: nothing is lost or duplicated by the split |
| Text.AllFixedPartition | gummy.py:1420-1421 | when every word is fixed, the fixed part is the whole text and the unfixed part is empty |
| Text.LangKey | gummy.py:1459 | the key is the longest '-'-free prefix of the code, lower-cased character by character; it stops at the first '-' or at the end |
| Text.SupportedKeyIsPrefix | gummy.py:1589-1600 | every supported code is "ll-CC", so its key is its two-letter lower-case prefix and contains no '-' |
| Reconciler.AppendLine | gummy.py:778-780 | appending to a full 20-line deque drops the oldest line; otherwise the line is added at the end; the deque never exceeds 20 lines |
| Reconciler.ProcessResult | gummy.py:1415-1427 | the tail becomes the result's partition and earlier lines are untouched; a sentence end then adds one empty line (below the cap) or shifts the window by one (at the cap); the buffer stays within its bound |
| Reconciler.ProcessResultStash | gummy_translator.py:616-642 | the same overwrite and append on a plain list; a stash then overwrites the tail, which after a sentence end is the new line; the closed line keeps the result's partition |
| Reconciler.ServiceWrites | gummy.py:1441-1446 | the closed lines are written only when their text is non-empty, then the tail; together the writes spell exactly the rendered buffer |
| Reconciler.TranslatorWrites | gummy_translator.py:661-674 | the closed lines are written only when there is more than one line, then the tail; together the writes spell exactly the rendered buffer |
| Reconciler.TrimTarget | gummy.py:1410-1413 | keeps the last 20 lines when there are more, otherwise leaves the buffer alone |
| Reconciler.UpdateText | gummy.py:1408-1462 | the target buffer never exceeds 21 lines; a plain-list source buffer gains a line per sentence end; a present transcription is processed into the source buffer and the translation under the target language's key into the trimmed target buffer, each line for line as `ProcessResult` states; no such key leaves the target as trimmed |
| Reconciler.UpdateTextTranslator | gummy_translator.py:613-687 | a present transcription updates the source track line for line as `TrackUpdated` prescribes (closed lines kept, a sentence end closes the tail with the result's partition and opens a line, the tail is the stash's partition, the open line or the result's partition); the "zh" translation does the same to the target track; an absent transcription or "zh" translation leaves its track alone |
| Reconciler.TrackUpdateDetermined | gummy_translator.py:616-642 | the per-track update is fully determined: two tracks that both satisfy it for the same old track and result are equal |
| Reconciler.ApplyAllValid | gummy.py:778-780 | whatever results arrive, a deque-backed buffer never holds more than 20 lines and always has a tail |
| Reconciler.OpenSentenceKeepsClosedLines | gummy.py:1420-1424 | results that do not end a sentence only rewrite the tail: the line count and every closed line are preserved, and the tail shows the latest result |
| Reconciler.SentenceAddsOneLine | gummy.py:1424-1427 | a whole sentence adds exactly one line; the closed line holds the final result's partition and an empty line follows |
| Reconciler.ListGrowsPerSentence | gummy.py:1237-1238 | on a plain list every sentence end adds a line, without any bound |
| Reconciler.ListSourceUnbounded | gummy.py:1408-1456 | after the deques are replaced by lists, feeding transcriptions grows the source buffer by one line per sentence, because only the target is trimmed |
| Reconciler.ListSourceExceedsCap | gummy.py:1237-1238 | 21 sentences after a language change leave 22 source lines, more than the 20-line cap |
| Reconciler.Example | gummy.py:1415-1446 | from one empty line, 他,好 then 他,好,。 (sentence end) leave the lines (他好。, '') and ('', ''), displayed as 他好。 |
| Reconciler.ReplayedSentenceEndDuplicates | gummy.py:1426-1427 | replaying a sentence-end result opens a second line: processing is not idempotent |
| Cursor.Scan | gummy.py:1815-1818 | each emitted index is a fixed word at or after the pointer as it stood, indices strictly increase, the pointer grows by exactly the number emitted, and a fixed word is passed over only when it lies below the pointer as it stood when the scan reached it (the start pointer plus the words emitted before it), so none at or after the final pointer is |
| Cursor.Advance | gummy_translator.py:110-126 | every queued word is a fixed word of the result at or after the pointer; on sentence end the marker is queued last and all pointers reset, with the sentence counter incremented |
| Cursor.OnEvent | gummy.py:1799-1825 | nothing is queued and the cursor stays unless TTS is enabled and the result has a translation for the target key; otherwise the translation advances the cursor |
| Cursor.OnEventTranslator | gummy_translator.py:85-127 | the transcription moves only the source pointer, by its scan; a "zh" translation then advances the cursor exactly as `Advance` does, so the words queued are those `Scan` picks from the target pointer (every fixed word at or after the running pointer); its sentence end queues the marker and resets both pointers |
| Cursor.ExactWhenFixedPrefix | gummy.py:1815-1818 | when the fixed words are exactly the first k words, the cursor emits exactly the words between the pointer and k, in order, and lands on k |
| Cursor.AdvanceExact | gummy_translator.py:110-126 | when the fixed words are exactly the first k words and the pointer is at most k, the queued words are exactly those from the pointer up to k, in order, and without a sentence end the pointer lands on k; a pointer at or past k queues no word |
| Cursor.OnEventTranslatorExact | gummy_translator.py:110-127 | under the same condition on the "zh" translation, the translator's callback queues exactly its newly fixed words, then the marker on a sentence end, and otherwise moves the pointer to k |
| Cursor.DriftWithoutFixedPrefix | gummy_translator.py:110-118 | when a fixed word follows a provisional one, the pointer drifts: "b" is queued twice and "a" never |
| Playback.SplitFixedSound | gummy.py:1937-1949 | the reference split conserves the bytes, and every piece but the last is exactly 4096 bytes |
| Playback.SplitFixedUnique | gummy.py:1937-1949 | any well-chunked split of the same bytes is the reference split |
| Playback.Rechunk | gummy.py:1937-1949 | the writes conserve the received bytes, every write but the last is 4096 bytes, none is empty, and they equal the reference split; the translator's loop at gummy_translator.py lines 221-233 is the same |
| Synthesis.Step | gummy.py:1912-1959 | a request is sent iff the item is a sentence end or clause punctuation after more than 15 buffered characters, and it is the buffer, the word and the pause marker; otherwise the word is buffered and nothing plays; an answered request resets the buffer and plays only on 200, re-chunked; an exception keeps the sent text buffered |
| Synthesis.Tick | gummy_translator.py:183-192 | while TTS is disabled or the queue is empty nothing is consumed; otherwise exactly the head item is taken and handled as one `Step` of the batcher: the same request, buffer and writes |
| Synthesis.RunFlushes | gummy_translator.py:192-201 | over any run, every sentence end flushes, only sentence ends and clause marks can flush, and there is one request per flush |
| Synthesis.RunConservesText | gummy.py:1915-1959 | while every request is answered, the requests sent followed by the buffer are the queued words in order, with one pause marker after each flushed word |
| Synthesis.FlushThreshold | gummy_translator.py:192 | a clause mark after 15 characters does not flush, after 16 it does, and a sentence end flushes an empty buffer |
| Backoff.Classify | gummy.py:1858-1884 | a clean stop resets the count; failures other than authentication count one retry; network waits 2s, device 1s and authentication 5s, each reported; other failures report and wait 5s only from the third retry on |
| Backoff.ReplayCountsFailures | gummy.py:1763-1884 | the retry count equals the number of non-authentication failures since the last clean stop, or since the start when there was none |
| Backoff.AuthErrorsKeepCount | gummy.py:1871-1874 | authentication errors alone never move the count |
| Backoff.OtherErrorReportThreshold | gummy.py:1876-1884 | after a clean stop, an unclassified failure is reported iff at least three counting failures have occurred since |
| Backoff.LadderExample | gummy.py:1858-1884 | two unclassified failures are silent, the third reports, an authentication error in between changes nothing, and a clean stop resets |
| Service.Initial | gummy.py:1656-1669 | a new service is stopped, has no threads and an empty log, and satisfies the lifecycle invariant |
| Service.Start | gummy.py:1713-1743 | a no-op while running; an empty API key only reports; otherwise the service runs with a new recognition thread and reports the start, and a synthesis thread only if TTS is enabled and its key is non-empty (a missing key is reported after the start); keys, switch and languages never change |
| Service.Stop | gummy.py:1745-1759 | the service is stopped, the device is closed and nothing else changes |
| Service.OnOpen | gummy.py:1777-1786 | the recognizer's open callback opens the capture device and changes nothing else |
| Service.OnClose | gummy.py:1788-1797 | the recognizer's close callback releases the capture device and changes nothing else |
| Service.Observe | gummy.py:1638-1645 | thread liveness changes only for threads that exist |
| Service.CheckAndRestart | gummy.py:1634-1653 | nothing happens while stopped or while the watched threads live; otherwise the interruption is reported and the service is stopped and started; a valid running service stays running |
| Service.SetLanguages | gummy.py:1693-1711 | the answer is true iff both codes are supported; false changes nothing; true sets both codes, and a running service is stopped and started again with them (device released, fresh recognition thread, `Stopped` then `Started` logged), so it stays running |
| Service.StartStopIdempotent | gummy.py:1713-1759 | starting twice is starting once, and stopping twice leaves the same state apart from the log |
| Service.RestartRuns | gummy.py:1649-1653 | stop then start leaves the service running with a new recognition thread, the device closed and keys and languages unchanged |
| Service.FreshStartIsAlive | gummy.py:1634-1653 | right after a successful start, the watchdog leaves the service alone |
| Service.StaleSynthesisThreadRestartsForever | gummy.py:1644-1653 | with TTS on, an empty synthesis key and a finished synthesis thread from an earlier run, every check restarts the service and the dead thread remains |
| Service.RestartReleasesDevice | gummy.py:1649-1653 | a watchdog restart of a service whose recognizer opened the device leaves it running with the device released, ready to be opened again |
| Service.StartAsWritten | gummy.py:1730-1738 | as written, with TTS on and a key configured, the synthesis thread is created but finished at once, so the watched threads are not all alive; otherwise it is `Start` |
| Service.CheckAndRestartAsWritten | gummy.py:1634-1653 | the watchdog restarting through the as-written start differs from the intended one only in the synthesis thread; a restart is exactly the as-written start after the interruption is reported and the service stopped; a valid running service with a dead watched thread reports the interruption, the stop and the start and keeps running |
| Service.SynthesisCrashRestartsEveryTick | gummy.py:1644-1653 | with TTS on and a key configured, the as-written service is restarted on every tick: after n ticks it runs with a dead synthesis thread, its log has grown by three entries per tick, and only the log, the threads and (after a tick) the released device differ |
| Service.SynthesisCrashFromStart | gummy.py:1730-1738 | right after the as-written start with TTS on and a key, the first tick already restarts the service |
| Service.SetLanguagesKey | gummy.py:1693-1696 | after a successful language change, the target's key is its two-letter prefix |
| Service.ProcessQueueSafely | gummy.py:1602-1612 | the drained items followed by the remaining queue are the original queue, so items leave in FIFO order; it takes min(n, length) items, and none for n <= 0 |
| Service.ApplyLanguageSettings | gummy.py:1220-1238 | unchanged codes leave everything as is; when either code differs, the service is updated as `set_languages` does (both codes set and a running service restarted if both are supported, the service unchanged otherwise), and in both cases both buffers are replaced by fresh, uncapped lists |
| Service.LanguageChangeLosesCap | gummy.py:1237-1238 | after a language change, 21 sentences leave more source lines than the cap |
| Window.SetPanelAlpha | gummy_translator.py:426-433 | the alpha is recorded and alpha plus brightness is 255; an alpha in [0, 255] gives a valid window |
| Window.ToggleColorMode | gummy_translator.py:506-520 | the scheme flips; dark gives alpha 255 and brightness 0, light gives alpha 0 and brightness 255 |
| Window.OnKeyPress | gummy_translator.py:466-494 | Alt+Up/Down step the alpha by 20, clamped to [0, 255]; Alt+S flips TTS and empties the queue when switching on; Ctrl+H only toggles the title bar; any other key leaves the state unchanged and is passed on, and an event is passed on only then; validity is preserved |
| Window.KeysKeepAlphaInRange | gummy_translator.py:472-479 | after any key sequence, the alpha stays in [0, 255] and the brightness is its complement in [0, 255] |
| Window.InitialKeysKeepAlphaInRange | gummy_translator.py:255-259 | starting from the initial window (alpha 0), every key sequence keeps the window valid |
| Window.StepsUndo | gummy_translator.py:472-479 | Alt+Down undoes Alt+Up unless the clamp at 255 cut the step short, and the reverse at 0 |
| Window.UpsFrom | gummy_translator.py:475 | n presses of Alt+Up give min(255, alpha + 20n) |
| Window.AlphaSaturates | gummy_translator.py:475 | thirteen presses from 0 reach 255 and a fourteenth stays there |
| Window.ToggleTwice | gummy_translator.py:482-488 | Alt+S twice restores the switch, and the queue is empty whenever the switch ends on |

## Left out

- The wxPython user interface: panels, fonts, colours, dialogs, the
  first-run wizard, the tray, dragging and theme detection. Only the alpha,
  brightness, colour-scheme and title-bar flags of the translator window are
  modelled.
- The configuration manager, `save_api_key`/`load_api_key` and the crypto
  behind them. Keys are plain strings in the state.
- The recognition SDK, the HTTP synthesis request, voice selection and the
  request payload. Their outputs are inputs of the model (results, `Outcome`,
  `Attempt`).
- PyAudio, `AudioContextManager` and the microphone read loop (3200-byte
  frames). The capture device is one open/closed flag set by `on_open`,
  `on_close` and `stop`.
- Threads, locks, timers and sleeps. Delays appear only as the number of
  seconds in `Backoff.Decision`.
- The window timer that calls `process_queue_safely(10)` and `update_text` on
  each batch is not modelled as one operation. The drain and `update_text` are
  modelled separately.
- The opacity-to-alpha conversion `int(255 * (opacity / 100))`, which uses
  floating point.
- Logging, printing and the wording of status messages. Status updates are
  tags.
- Text.LangKey: lower-cases ASCII letters only; Python's `str.lower` also
  maps non-ASCII letters. All supported codes are ASCII.
- Service.Start: the exception path (a thread that cannot be created resets
  the run flag) is not modelled.
- Service.Start: this is the intended start. As written, the synthesis
  thread it creates dies at once (see Findings); `Service.StartAsWritten`
  models that. The speech-synthesis loop of gummy.py (lines 1912-1959) is
  therefore unreachable as written; `Synthesis` models it as intended, which
  is also how the translator's loop runs. Were it reached, its playback
  stream (gummy.py:1936, opened through `AudioContextManager` at
  gummy.py:2051-2066) is requested with `input=False` and no `output=True`,
  which PyAudio refuses as neither an input nor an output stream; every
  answer with status 200 would then take the `PlaybackRaised(_, 0)` path of
  `Synthesis.Step`: nothing is played and the sent text stays buffered. The
  translator opens its stream with `output=True` (gummy_translator.py:220).
- Service.CheckAndRestart: threads from before a quick restart may still be
  running until they notice the stop; the model has one record per thread
  kind.
- Synthesis.Step: a failure during playback is abstracted as "some prefix of
  the re-chunked writes was made", bounded by `written`; the exact point of
  failure is an input.
- That no two supported codes share a language key is not stated: the case analysis over ten string literals is too costly for the solver.
- Reconciler.ProcessResultStash: the stash's words are read with both
  `word['fixed']` and `word.text`; the model assumes both access the same
  word.

## Findings

| source | as written | input that shows it | evidently intended | confidence | as-written member | corrected member |
|---|---|---|---|---|---|---|
| gummy.py:1886-1892 | the synthesis thread builds its request header from `self.tts_api_key`, which `TranslationService` never assigns (only `update_api_settings`, gummy.py:2011-2015, does, and nothing calls it), so the thread raises before its loop | TTS enabled and a non-empty plaintext synthesis key in the configuration file; `save_api_key` always blanks that entry (gummy.py:203, 235, 242), so this arises only from a hand-written or older file, while keys saved through the dialog or wizard make `start` report a missing key instead: with such a file, `start` creates the thread, it dies at once, and every `check_and_restart` tick reports an interruption and restarts the service (`Service.SynthesisCrashRestartsEveryTick`) | the thread uses the key `start` reads from the configuration (gummy.py:1731) and keeps running, so the watchdog leaves a fresh start alone (`Service.FreshStartIsAlive`) | high; not executed | Service.StartAsWritten | Service.Start |

=== FILE: backoff.dfy ===
/**
 The retry ladder of the recognition task. Each pass of its outer loop
 either ends cleanly (the translator was stopped because the service stopped
 running) or raises; the kind of exception decides the new retry count, the
 pause before the next pass and whether a status line is posted to the window.
 The loop never gives up: the retry count only changes the pause and the report.
 */
module Backoff {

  /** The exception classes the ladder distinguishes, in the order it tries them. */
  datatype Failure = NetworkError | AudioDeviceError | AuthError | OtherError

  /** How one pass of the loop ended. */
  datatype Attempt = CleanStop | Raised(failure: Failure)

  /** The retry count after the pass, the pause in seconds and whether a
      status update is posted. */
  datatype Decision = Decision(retryCount: nat, delaySeconds: nat, reportToUi: bool)

  /** `max_retries` of the recognition task. */
  const MaxRetries := 3

  /** The exception ladder for one pass, given the retry count before it. */
  function Classify(a: Attempt, count: nat): (d: Decision)
    // a clean stop resets the count and neither waits nor reports
    ensures a.CleanStop? ==> d == Decision(0, 0, false)
    // every failure except an authentication error counts as a retry
    ensures a.Raised? ==> d.retryCount == if a.failure == AuthError then count else count + 1
    ensures a.Raised? ==> 1 <= d.delaySeconds <= 5
    ensures a == Raised(NetworkError) ==> d.delaySeconds == 2 && d.reportToUi
    ensures a == Raised(AudioDeviceError) ==> d.delaySeconds == 1 && d.reportToUi
    ensures a == Raised(AuthError) ==> d.delaySeconds == 5 && d.reportToUi
    // an unclassified failure waits long and reports only from the third retry on
    ensures a == Raised(OtherError) ==>
      (d.reportToUi <==> d.retryCount >= MaxRetries)
      && d.delaySeconds == (if d.retryCount >= MaxRetries then 5 else 1)
  {
    match a
    case CleanStop => Decision(0, 0, false)
    case Raised(f) =>
      match f
      case NetworkError => Decision(count + 1, 2, true)
      case AudioDeviceError => Decision(count + 1, 1, true)
      case AuthError => Decision(count, 5, true)
      case OtherError =>
        var n := count + 1;
        if n >= MaxRetries then Decision(n, 5, true) else Decision(n, 1, false)
  }

  /** The retry count after a run of passes, starting from `count`. */
  function Replay(count: nat, attempts: seq<Attempt>): nat
  {
    if |attempts| == 0 then count
    else Classify(attempts[|attempts| - 1], Replay(count, attempts[..|attempts| - 1])).retryCount
  }

  /** The number of passes that failed with something other than an
      authentication error. */
  function CountingFailures(attempts: seq<Attempt>): nat
  {
    if |attempts| == 0 then 0
    else CountingFailures(attempts[..|attempts| - 1])
         + (if attempts[|attempts| - 1].Raised? && attempts[|attempts| - 1].failure != AuthError then 1 else 0)
  }

  /** The retry count is the number of counting failures since the last clean
      stop; when there was none, those failures are added to the starting count.
      `k` is the position just after the last clean stop, or 0. */
  lemma {:induction false} ReplayCountsFailures(count: nat, attempts: seq<Attempt>, k: nat)
    requires k <= |attempts|
    requires k > 0 ==> attempts[k - 1] == CleanStop
    requires forall i :: k <= i < |attempts| ==> attempts[i].Raised?
    ensures Replay(count, attempts) == (if k == 0 then count else 0) + CountingFailures(attempts[k..])
    decreases |attempts|
  {
    if |attempts| == k {
      if k > 0 {
        assert attempts[k..] == [];
      }
    } else {
      var pre := attempts[..|attempts| - 1];
      ReplayCountsFailures(count, pre, k);
      assert attempts[k..][..|attempts[k..]| - 1] == pre[k..];
    }
  }

  /** Authentication errors never move the count, so a run made only of them
      keeps waiting 5 seconds without ever getting closer to the threshold. */
  lemma {:induction false} AuthErrorsKeepCount(count: nat, attempts: seq<Attempt>)
    requires forall i :: 0 <= i < |attempts| ==> attempts[i] == Raised(AuthError)
    ensures Replay(count, attempts) == count
    decreases |attempts|
  {
    if |attempts| > 0 {
      AuthErrorsKeepCount(count, attempts[..|attempts| - 1]);
    }
  }

  /** After a clean stop, an unclassified failure is reported exactly when it
      is at least the third counting failure since that stop. */
  lemma OtherErrorReportThreshold(attempts: seq<Attempt>, k: nat)
    requires 0 < k < |attempts|
    requires attempts[k - 1] == CleanStop
    requires forall i :: k <= i < |attempts| ==> attempts[i].Raised?
    requires attempts[|attempts| - 1] == Raised(OtherError)
    ensures var d := Classify(attempts[|attempts| - 1], Replay(0, attempts[..|attempts| - 1]));
      d.reportToUi <==> CountingFailures(attempts[k..]) >= MaxRetries
  {
    ReplayCountsFailures(0, attempts, k);
  }

  /** A worked ladder: two unclassified failures stay silent, the third
      reports, an authentication error in between changes nothing, and a clean
      stop starts over. */
  lemma LadderExample()
    ensures Classify(Raised(OtherError), 0) == Decision(1, 1, false)
    ensures Classify(Raised(OtherError), 1) == Decision(2, 1, false)
    ensures Classify(Raised(AuthError), 2) == Decision(2, 5, true)
    ensures Classify(Raised(OtherError), 2) == Decision(3, 5, true)
    ensures Replay(0, [Raised(OtherError), Raised(AuthError), Raised(NetworkError), Raised(OtherError)]) == 3
    ensures Replay(7, [Raised(OtherError), CleanStop]) == 0
  {
    var a := [Raised(OtherError), Raised(AuthError), Raised(NetworkError), Raised(OtherError)];
    assert a[..3] == [Raised(OtherError), Raised(AuthError), Raised(NetworkError)];
    assert a[..3][..2] == [Raised(OtherError), Raised(AuthError)];
    assert a[..3][..2][..1] == [Raised(OtherError)];
    assert a[..3][..2][..1][..0] == [];
    assert Replay(0, a[..3][..2][..1]) == 1;
    assert Replay(0, a[..3][..2]) == 1;
    assert Replay(0, a[..3]) == 2;
    var b := [Raised(OtherError), CleanStop];
    assert b[..1] == [Raised(OtherError)];
  }
}

=== FILE: cursor.dfy ===
/**
 The fixed-word cursor of the recognition callback. Every incremental result
 carries the whole word list of the current sentence; a per-sentence pointer
 turns these full replacements into a stream of newly fixed words for the
 speech-synthesis queue, followed by a sentence-end marker.
 */
module Cursor {
  import opened Text

  /** The pointers a callback object keeps; a new callback starts at zero. */
  datatype CursorState = CursorState(sentencePtr: nat, zhWordPtr: nat, tgWordPtr: nat)

  const InitialCursor := CursorState(0, 0, 0)

  /** An item of the fixed-word queue: a word, or the sentence-end marker. */
  datatype TtsItem = TtsItem(word: string, isSentenceEnd: bool)

  const SentenceEndMarker := TtsItem("", true)

  /** The loop `for i, word in enumerate(words): if word.fixed and i >= ptr:
      emit; ptr += 1`, from index `i` with the pointer as it stands. Returns
      the emitted indices and the final pointer. The pointer grows by one per
      emitted word, not to `i + 1`. */
  function Scan(ws: seq<Word>, i: nat, ptr: nat): (res: (seq<nat>, nat))
    requires i <= |ws|
    ensures res.1 == ptr + |res.0|
    // each emitted word is fixed and sits at or after the pointer as it stood when emitted
    ensures forall j :: 0 <= j < |res.0| ==>
      i <= res.0[j] < |ws| && ws[res.0[j]].fixed && res.0[j] >= ptr + j
    ensures forall j, k :: 0 <= j < k < |res.0| ==> res.0[j] < res.0[k]
    // no fixed word at or after the final pointer is passed over
    ensures forall m :: i <= m < |ws| && ws[m].fixed && m >= res.1 ==> m in res.0
    // a fixed word passed over lies below the pointer as it stood when the
    // scan reached it, which is `ptr` plus the number emitted before it
    ensures forall m :: i <= m < |ws| && ws[m].fixed && m !in res.0 ==> m < ptr + CountBelow(res.0, m)
    decreases |ws| - i
  {
    if i == |ws| then ([], ptr)
    else if ws[i].fixed && i >= ptr then
      var rest := Scan(ws, i + 1, ptr + 1);
      assert ([i] + rest.0)[1..] == rest.0;
      ([i] + rest.0, rest.1)
    else Scan(ws, i + 1, ptr)
  }

  /** How many of the indices are below `m`. */
  function CountBelow(idx: seq<nat>, m: nat): nat
  {
    if |idx| == 0 then 0 else (if idx[0] < m then 1 else 0) + CountBelow(idx[1..], m)
  }

  /** The queue items for the emitted indices. */
  function ItemsAt(ws: seq<Word>, idx: seq<nat>): (items: seq<TtsItem>)
    requires forall j :: 0 <= j < |idx| ==> idx[j] < |ws|
    ensures |items| == |idx|
    ensures forall j :: 0 <= j < |idx| ==> items[j] == TtsItem(ws[idx[j]].text, false)
  {
    if |idx| == 0 then [] else [TtsItem(ws[idx[0]].text, false)] + ItemsAt(ws, idx[1..])
  }

  /** Every item is a word at or after `ptr` that is fixed, never the marker. */
  ghost predicate FixedWordsFrom(items: seq<TtsItem>, ws: seq<Word>, ptr: nat)
  {
    forall j :: 0 <= j < |items| ==>
      !items[j].isSentenceEnd
      && exists k :: ptr <= k < |ws| && ws[k].fixed && ws[k].text == items[j].word
  }

  /** Scanning one result from the pointer, then the marker on sentence end. */
  function Advance(c: CursorState, t: SentenceResult): (res: (CursorState, seq<TtsItem>))
    ensures var n := if t.isSentenceEnd then |res.1| - 1 else |res.1|;
      0 <= n && FixedWordsFrom(res.1[..n], t.words, c.tgWordPtr)
      && (!t.isSentenceEnd ==> res.0 == c.(tgWordPtr := c.tgWordPtr + n))
      && (t.isSentenceEnd ==> Last(res.1) == SentenceEndMarker
                              && res.0 == CursorState(c.sentencePtr + 1, 0, 0))
  {
    var (idx, ptr) := Scan(t.words, 0, c.tgWordPtr);
    var items := ItemsAt(t.words, idx);
    assert forall j :: 0 <= j < |items| ==> t.words[idx[j]].text == items[j].word;
    if t.isSentenceEnd then
      assert (items + [SentenceEndMarker])[..|items|] == items;
      (CursorState(c.sentencePtr + 1, 0, 0), items + [SentenceEndMarker])
    else
      assert items[..|items|] == items;
      (c.(tgWordPtr := ptr), items)
  }

  /** `Callback.on_event` of the service: with TTS enabled and a translation
      for the target language's key, the newly fixed words are queued, then
      the marker on sentence end; otherwise nothing is queued and the cursor
      stays. (The result pair itself always goes to the display queue.) */
  function OnEvent(c: CursorState, enableTts: bool, targetLanguage: string,
                   translation: Option<Translation>): (res: (CursorState, seq<TtsItem>))
    ensures !(enableTts && translation.Some? && LangKey(targetLanguage) in translation.value) ==>
      res.0 == c && res.1 == []
    ensures res.1 != [] ==> enableTts
    ensures res.0.zhWordPtr == c.zhWordPtr || res.0.zhWordPtr == 0
    ensures enableTts && translation.Some? && LangKey(targetLanguage) in translation.value ==>
      res == Advance(c, translation.value[LangKey(targetLanguage)])
  {
    var key := LangKey(targetLanguage);
    if enableTts && translation.Some? && key in translation.value then
      Advance(c, translation.value[key])
    else
      (c, [])
  }

  /** `Callback.on_event` of the translator: the transcription's fixed words
      advance the source pointer (their text is not queued), the "zh"
      translation's newly fixed words are queued whatever the TTS switch says,
      and its sentence end resets both pointers. */
  function OnEventTranslator(c: CursorState, transcription: Option<SentenceResult>,
                             translation: Option<Translation>): (res: (CursorState, seq<TtsItem>))
    ensures transcription.Some? && !(translation.Some? && "zh" in translation.value) ==>
      res.1 == [] && res.0 == c.(zhWordPtr := Scan(transcription.value.words, 0, c.zhWordPtr).1)
    ensures transcription.None? && !(translation.Some? && "zh" in translation.value) ==> res == (c, [])
    ensures translation.Some? && "zh" in translation.value ==>
      var t := translation.value["zh"];
      var n := if t.isSentenceEnd then |res.1| - 1 else |res.1|;
      0 <= n && FixedWordsFrom(res.1[..n], t.words, c.tgWordPtr)
      && (t.isSentenceEnd ==> Last(res.1) == SentenceEndMarker && res.0 == CursorState(c.sentencePtr + 1, 0, 0))
      && (!t.isSentenceEnd ==> res.0.tgWordPtr == c.tgWordPtr + n && res.0.sentencePtr == c.sentencePtr)
    // the source pointer follows the transcription, unless a "zh" sentence end resets it
    ensures res.0.zhWordPtr ==
      if translation.Some? && "zh" in translation.value && translation.value["zh"].isSentenceEnd then 0
      else if transcription.Some? then Scan(transcription.value.words, 0, c.zhWordPtr).1
      else c.zhWordPtr
    // the "zh" translation advances the cursor as `Advance` does, after the
    // transcription has moved the source pointer
    ensures translation.Some? && "zh" in translation.value ==>
      res == Advance(if transcription.Some?
                     then c.(zhWordPtr := Scan(transcription.value.words, 0, c.zhWordPtr).1)
                     else c,
                     translation.value["zh"])
  {
    var c1 := if transcription.Some? then c.(zhWordPtr := Scan(transcription.value.words, 0, c.zhWordPtr).1) else c;
    if translation.Some? && "zh" in translation.value then
      var t := translation.value["zh"];
      var (c2, items) := Advance(c1, t);
      (c2, items)
    else
      (c1, [])
  }

  // ---------------------------------------------------------------------------
  // When the pointer is exact, and when it is not

  /** The fixed words are exactly the first `k` words. */
  predicate FixedPrefix(ws: seq<Word>, k: nat)
  {
    k <= |ws| && forall i :: 0 <= i < |ws| ==> (ws[i].fixed <==> i < k)
  }

  /** The indices lo, lo+1, ..., hi-1. */
  function Range(lo: nat, hi: nat): (r: seq<nat>)
    requires lo <= hi
    ensures |r| == hi - lo && forall j :: 0 <= j < |r| ==> r[j] == lo + j
    decreases hi - lo
  {
    if lo == hi then [] else [lo] + Range(lo + 1, hi)
  }

  lemma {:induction false} ScanOnFixedPrefix(ws: seq<Word>, k: nat, i: nat, p: nat)
    requires FixedPrefix(ws, k) && i <= |ws| && (i <= p || k <= i)
    ensures i <= p && p < k ==> Scan(ws, i, p) == (Range(p, k), k)
    ensures (k <= p || k <= i) ==> Scan(ws, i, p) == ([], p)
    decreases |ws| - i
  {
    if i < |ws| {
      if ws[i].fixed && i >= p {
        ScanOnFixedPrefix(ws, k, i + 1, p + 1);
        assert i == p;
        if p + 1 < k {
          assert [p] + Range(p + 1, k) == Range(p, k);
        } else {
          assert [p] == Range(p, k);
        }
      } else {
        ScanOnFixedPrefix(ws, k, i + 1, p);
      }
    }
  }

  /** When the fixed words form a prefix of length k, the cursor emits exactly
      the fixed words it has not emitted yet, in order, and the pointer lands on k. */
  lemma ExactWhenFixedPrefix(ws: seq<Word>, k: nat, ptr: nat)
    requires FixedPrefix(ws, k)
    ensures ptr <= k ==> Scan(ws, 0, ptr) == (Range(ptr, k), k)
    ensures k <= ptr ==> Scan(ws, 0, ptr) == ([], ptr)
  {
    ScanOnFixedPrefix(ws, k, 0, ptr);
  }

  /** The queue items for the words lo, lo+1, ..., hi-1. */
  function WordItems(ws: seq<Word>, lo: nat, hi: nat): seq<TtsItem>
    requires lo <= hi <= |ws|
  {
    seq(hi - lo, j requires 0 <= j < hi - lo => TtsItem(ws[lo + j].text, false))
  }

  /** With the fixed words forming a prefix of length k, one result queues
      exactly the fixed words from the pointer up to k, in order, and the
      pointer lands on k (or is reset by a sentence end); a pointer already
      at or past k queues no word. */
  lemma AdvanceExact(c: CursorState, t: SentenceResult, k: nat)
    requires FixedPrefix(t.words, k)
    ensures var res := Advance(c, t);
      var n := if t.isSentenceEnd then |res.1| - 1 else |res.1|;
      0 <= n
      && (c.tgWordPtr <= k ==> res.1[..n] == WordItems(t.words, c.tgWordPtr, k)
                               && (!t.isSentenceEnd ==> res.0 == c.(tgWordPtr := k)))
      && (k <= c.tgWordPtr ==> n == 0 && (!t.isSentenceEnd ==> res.0 == c))
  {
    ExactWhenFixedPrefix(t.words, k, c.tgWordPtr);
    AdvanceQueuesScanned(c, t);
    if c.tgWordPtr <= k {
      ItemsAtRange(t.words, c.tgWordPtr, k);
    }
  }

  /** The words queued by `Advance` are those `Scan` picks, and without a
      sentence end the pointer is the one `Scan` leaves. */
  lemma AdvanceQueuesScanned(c: CursorState, t: SentenceResult)
    ensures var res := Advance(c, t);
      var n := if t.isSentenceEnd then |res.1| - 1 else |res.1|;
      var sc := Scan(t.words, 0, c.tgWordPtr);
      0 <= n && res.1[..n] == ItemsAt(t.words, sc.0)
      && (!t.isSentenceEnd ==> res.0 == c.(tgWordPtr := sc.1))
  {
    var sc := Scan(t.words, 0, c.tgWordPtr);
    var items := ItemsAt(t.words, sc.0);
    if t.isSentenceEnd {
      assert (items + [SentenceEndMarker])[..|items|] == items;
    } else {
      assert items[..|items|] == items;
    }
  }

  lemma ItemsAtRange(ws: seq<Word>, lo: nat, hi: nat)
    requires lo <= hi <= |ws|
    ensures ItemsAt(ws, Range(lo, hi)) == WordItems(ws, lo, hi)
  {
  }

  /** The translator's callback under the same condition on the "zh"
      translation: the queued words are exactly its newly fixed words. */
  lemma OnEventTranslatorExact(c: CursorState, transcription: Option<SentenceResult>,
                               translation: Option<Translation>, k: nat)
    requires translation.Some? && "zh" in translation.value
    requires FixedPrefix(translation.value["zh"].words, k) && c.tgWordPtr <= k
    ensures var t := translation.value["zh"];
      var res := OnEventTranslator(c, transcription, translation);
      var n := if t.isSentenceEnd then |res.1| - 1 else |res.1|;
      0 <= n && res.1[..n] == WordItems(t.words, c.tgWordPtr, k)
      && (t.isSentenceEnd ==> Last(res.1) == SentenceEndMarker)
      && (!t.isSentenceEnd ==> res.0.tgWordPtr == k && res.0.sentencePtr == c.sentencePtr)
  {
    var c1 := if transcription.Some? then c.(zhWordPtr := Scan(transcription.value.words, 0, c.zhWordPtr).1) else c;
    AdvanceExact(c1, translation.value["zh"], k);
  }

  /** When a fixed word follows an unfixed one the pointer drifts: here "b" is
      queued twice and "a" never, although the final result fixes both. */
  lemma DriftWithoutFixedPrefix()
    ensures var t1 := map["zh" := SentenceResult([Word("a", false), Word("b", true)], false, None)];
            var t2 := map["zh" := SentenceResult([Word("a", true), Word("b", true)], false, None)];
            var (c1, q1) := OnEventTranslator(InitialCursor, None, Some(t1));
            var (c2, q2) := OnEventTranslator(c1, None, Some(t2));
            q1 + q2 == [TtsItem("b", false), TtsItem("b", false)]
  {
    var w1 := [Word("a", false), Word("b", true)];
    var w2 := [Word("a", true), Word("b", true)];
    assert Scan(w1, 2, 1) == ([], 1);
    assert w1[1].fixed && 1 >= 0;
    assert Scan(w1, 1, 0) == ([1] + Scan(w1, 2, 1).0, Scan(w1, 2, 1).1);
    var none: seq<nat> := [];
    assert [1] + none == [1];
    assert Scan(w1, 1, 0) == ([1], 1);
    assert Scan(w1, 0, 0) == ([1], 1);
    assert Scan(w2, 2, 2) == ([], 2);
    assert Scan(w2, 1, 1) == ([1] + Scan(w2, 2, 2).0, Scan(w2, 2, 2).1);
    assert Scan(w2, 1, 1) == ([1], 2);
    assert Scan(w2, 0, 1) == ([1], 2);
    assert ItemsAt(w1, [1]) == [TtsItem("b", false)];
    assert ItemsAt(w2, [1]) == [TtsItem("b", false)];
  }
}

=== FILE: playback.dfy ===
/**
 Playback of a streamed synthesis response: the received chunks are collected
 into a local buffer that is written to the audio device in 4096-byte pieces
 as soon as a full piece is available; the remainder is written at the end of
 the stream when it is non-empty.
 */
module Playback {

  newtype Byte = b: int | 0 <= b < 256

  type Bytes = seq<Byte>

  /** `buffer_size` of the playback loop. */
  const ChunkSize := 4096

  /** All chunks laid end to end. */
  function Flatten(chunks: seq<Bytes>): Bytes
  {
    if |chunks| == 0 then [] else Flatten(chunks[..|chunks| - 1]) + chunks[|chunks| - 1]
  }

  lemma {:induction false} FlattenAppend(a: seq<Bytes>, b: seq<Bytes>)
    ensures Flatten(a + b) == Flatten(a) + Flatten(b)
    decreases |b|
  {
    if |b| == 0 {
      assert a + b == a;
    } else {
      var b' := b[..|b| - 1];
      assert (a + b)[..|a + b| - 1] == a + b';
      FlattenAppend(a, b');
    }
  }

  lemma FlattenCons(x: Bytes, rest: seq<Bytes>)
    ensures Flatten([x] + rest) == x + Flatten(rest)
  {
    FlattenAppend([x], rest);
    assert [x][..0] == [];
  }

  /** Every write but the last is a full piece, and no write is empty or oversized. */
  predicate WellChunked(w: seq<Bytes>)
  {
    forall j :: 0 <= j < |w| ==> 0 < |w[j]| <= ChunkSize && (j < |w| - 1 ==> |w[j]| == ChunkSize)
  }

  /** The reference split: full pieces from the front, then what is left. */
  function SplitFixed(data: Bytes): seq<Bytes>
    decreases |data|
  {
    if |data| == 0 then []
    else if |data| <= ChunkSize then [data]
    else [data[..ChunkSize]] + SplitFixed(data[ChunkSize..])
  }

  /** The reference split conserves the bytes and is well chunked. */
  lemma {:induction false} SplitFixedSound(data: Bytes)
    ensures Flatten(SplitFixed(data)) == data
    ensures WellChunked(SplitFixed(data))
    decreases |data|
  {
    if |data| == 0 {
    } else if |data| <= ChunkSize {
      FlattenCons(data, []);
    } else {
      SplitFixedSound(data[ChunkSize..]);
      FlattenCons(data[..ChunkSize], SplitFixed(data[ChunkSize..]));
      assert data[..ChunkSize] + data[ChunkSize..] == data;
    }
  }

  /** Conversely, a well-chunked split of `data` can only be the reference split. */
  lemma {:induction false} SplitFixedUnique(w: seq<Bytes>, data: Bytes)
    requires WellChunked(w) && Flatten(w) == data
    ensures w == SplitFixed(data)
    decreases |w|
  {
    if |w| > 0 {
      FlattenCons(w[0], w[1..]);
      assert [w[0]] + w[1..] == w;
      if |w| == 1 {
        assert w[1..] == [];
        assert data == w[0];
      } else {
        assert |Flatten(w[1..])| > 0 by {
          FlattenCons(w[1], w[2..]);
          assert [w[1]] + w[2..] == w[1..];
        }
        assert data[..ChunkSize] == w[0];
        assert data[ChunkSize..] == Flatten(w[1..]);
        SplitFixedUnique(w[1..], data[ChunkSize..]);
      }
    }
  }

  /** The playback loop: append each non-empty chunk to the local buffer,
      write full pieces while there are any, and write the remainder, if
      non-empty, at the end of the stream. */
  method Rechunk(chunks: seq<Bytes>) returns (writes: seq<Bytes>)
    ensures Flatten(writes) == Flatten(chunks)
    ensures WellChunked(writes)
    ensures writes == SplitFixed(Flatten(chunks))
  {
    writes := [];
    var pending: Bytes := [];
    for i := 0 to |chunks|
      invariant Flatten(writes) + pending == Flatten(chunks[..i])
      invariant forall j :: 0 <= j < |writes| ==> |writes[j]| == ChunkSize
      invariant |pending| < ChunkSize
    {
      assert chunks[..i + 1][..i] == chunks[..i];
      if |chunks[i]| > 0 {
        pending := pending + chunks[i];
        while |pending| >= ChunkSize
          invariant Flatten(writes) + pending == Flatten(chunks[..i + 1])
          invariant forall j :: 0 <= j < |writes| ==> |writes[j]| == ChunkSize
          decreases |pending|
        {
          var piece := pending[..ChunkSize];
          assert (writes + [piece])[..|writes|] == writes;
          assert piece + pending[ChunkSize..] == pending;
          writes := writes + [piece];
          pending := pending[ChunkSize..];
        }
      }
    }
    assert chunks[..|chunks|] == chunks;
    if |pending| > 0 {
      assert (writes + [pending])[..|writes|] == writes;
      writes := writes + [pending];
    }
    SplitFixedUnique(writes, Flatten(chunks));
  }
}

=== FILE: reconciler.dfy ===
/**
 The transcript reconciler: turns the stream of incremental results for one
 language track into a buffer of (fixed, unfixed) lines, one per sentence,
 whose last line is the sentence being built, and renders the buffer as text.

 Two variants exist. The service window keeps each buffer in a
 `deque(maxlen=20)` until a language change replaces it by a plain list, and
 trims only the target buffer on each update. The stand-alone translator
 window keeps plain lists and applies an optional stash after the sentence-end
 append.
 */
module Reconciler {
  import opened Text

  /** One sentence: the text the recognizer has fixed and the provisional rest. */
  datatype Line = Line(fixedPart: string, unfixedPart: string)

  const OpenLine := Line("", "")
  const MaxBufferSize := 20

  /** A transcript buffer; `capped` is true while it is the `deque(maxlen=20)`
      and false once it is a plain list. */
  datatype Buffer = Buffer(lines: seq<Line>, capped: bool)

  /** The buffers the service window starts with. */
  const InitialCapped := Buffer([OpenLine], true)
  /** The buffers a language change (and the translator window) starts with. */
  const InitialList := Buffer([OpenLine], false)

  /** There is always a tail line to overwrite, and a deque never exceeds its maxlen. */
  predicate Valid(b: Buffer)
  {
    |b.lines| >= 1 && (b.capped ==> |b.lines| <= MaxBufferSize)
  }

  /** The (fixed, unfixed) partition of a word list as one line. */
  function Partition(ws: seq<Word>): Line
  {
    Line(FixedText(ws), UnfixedText(ws))
  }

  /** `text_buffer[-1] = line` */
  function SetTail(lines: seq<Line>, l: Line): seq<Line>
    requires |lines| >= 1
  {
    lines[..|lines| - 1] + [l]
  }

  /** `text_buffer.append(line)`: a full deque drops its leftmost line first. */
  function AppendLine(b: Buffer, l: Line): (nb: Buffer)
    requires Valid(b)
    ensures Valid(nb) && nb.capped == b.capped
    ensures Last(nb.lines) == l
    ensures b.capped && |b.lines| == MaxBufferSize ==> nb.lines == b.lines[1..] + [l]
    ensures !(b.capped && |b.lines| == MaxBufferSize) ==> nb.lines == b.lines + [l]
  {
    if b.capped && |b.lines| == MaxBufferSize then Buffer(b.lines[1..] + [l], true)
    else Buffer(b.lines + [l], b.capped)
  }

  /** `process_result` of the service window: overwrite the tail with the
      partition of the result's words, then open a new line on sentence end. */
  function ProcessResult(b: Buffer, r: SentenceResult): (nb: Buffer)
    requires Valid(b)
    ensures Valid(nb) && nb.capped == b.capped
    // an ordinary result: same number of lines, earlier lines untouched, tail replaced
    ensures !r.isSentenceEnd ==>
      |nb.lines| == |b.lines| && Last(nb.lines) == Partition(r.words)
      && forall i :: 0 <= i < |b.lines| - 1 ==> nb.lines[i] == b.lines[i]
    // a sentence end closes the overwritten line and opens an empty one after it
    ensures r.isSentenceEnd ==>
      |nb.lines| >= 2 && Last(nb.lines) == OpenLine && nb.lines[|nb.lines| - 2] == Partition(r.words)
    ensures r.isSentenceEnd && !(b.capped && |b.lines| == MaxBufferSize) ==>
      |nb.lines| == |b.lines| + 1 && forall i :: 0 <= i < |b.lines| - 1 ==> nb.lines[i] == b.lines[i]
    // a full deque evicts its oldest line
    ensures r.isSentenceEnd && b.capped && |b.lines| == MaxBufferSize ==>
      |nb.lines| == MaxBufferSize && forall i :: 0 <= i < MaxBufferSize - 2 ==> nb.lines[i] == b.lines[i + 1]
  {
    var overwritten := Buffer(SetTail(b.lines, Partition(r.words)), b.capped);
    if r.isSentenceEnd then AppendLine(overwritten, OpenLine) else overwritten
  }

  /** What one result does to a plain-list track: the closed lines stay, a
      sentence end closes the tail with the result's partition and opens a
      line, and the new tail is the stash's partition when there is a stash,
      otherwise the open line or the result's partition. These facts fix
      every line of `nl` (see `TrackUpdateDetermined`). */
  predicate TrackUpdated(lines: seq<Line>, r: SentenceResult, nl: seq<Line>)
    requires |lines| >= 1
  {
    |nl| == |lines| + (if r.isSentenceEnd then 1 else 0)
    && (forall i :: 0 <= i < |lines| - 1 ==> nl[i] == lines[i])
    && (r.isSentenceEnd ==> nl[|lines| - 1] == Partition(r.words))
    && Last(nl) == (if r.stash.Some? then Partition(r.stash.value)
                    else if r.isSentenceEnd then OpenLine else Partition(r.words))
  }

  /** At most one track satisfies `TrackUpdated` for a given old track and result. */
  lemma TrackUpdateDetermined(lines: seq<Line>, r: SentenceResult, a: seq<Line>, b: seq<Line>)
    requires |lines| >= 1 && TrackUpdated(lines, r, a) && TrackUpdated(lines, r, b)
    ensures a == b
  {
    forall i | 0 <= i < |a|
      ensures a[i] == b[i]
    {
      if i == |a| - 1 {
        assert a[i] == Last(a) && b[i] == Last(b);
      }
    }
  }

  /** `process_result` of the translator window: the same overwrite and
      append on a plain list, then, when a stash is present, a second
      overwrite of the tail, which after a sentence end is the new line. */
  function ProcessResultStash(lines: seq<Line>, r: SentenceResult): (nl: seq<Line>)
    requires |lines| >= 1
    ensures |nl| == |lines| + (if r.isSentenceEnd then 1 else 0)
    ensures forall i :: 0 <= i < |lines| - 1 ==> nl[i] == lines[i]
    ensures r.isSentenceEnd ==> nl[|lines| - 1] == Partition(r.words)
    ensures r.stash.Some? ==> Last(nl) == Partition(r.stash.value)
    ensures r.stash.None? ==> Last(nl) == (if r.isSentenceEnd then OpenLine else Partition(r.words))
    ensures TrackUpdated(lines, r, nl)
  {
    var overwritten := SetTail(lines, Partition(r.words));
    var appended := if r.isSentenceEnd then overwritten + [OpenLine] else overwritten;
    match r.stash
    case Some(st) => SetTail(appended, Partition(st))
    case None => appended
  }

  // ---------------------------------------------------------------------------
  // Rendering

  function LineText(l: Line): string
  {
    l.fixedPart + l.unfixedPart
  }

  /** The displayed text: every line's fixed then unfixed part, in order. */
  function Render(lines: seq<Line>): string
  {
    if |lines| == 0 then "" else LineText(lines[0]) + Render(lines[1..])
  }

  lemma {:induction false} RenderAppend(a: seq<Line>, b: seq<Line>)
    ensures Render(a + b) == Render(a) + Render(b)
  {
    if |a| == 0 {
      assert a + b == b;
    } else {
      assert (a + b)[0] == a[0];
      assert (a + b)[1..] == a[1..] + b;
      RenderAppend(a[1..], b);
    }
  }

  /** The writes of the service window: the closed lines joined, written only
      when that text is non-empty, then the tail line. Together they display
      exactly the rendered buffer. */
  function ServiceWrites(lines: seq<Line>): (w: seq<string>)
    requires |lines| >= 1
    ensures 1 <= |w| <= 2 && Last(w) == LineText(Last(lines))
    ensures forall i :: 0 <= i < |w| ==> i == |w| - 1 || w[i] != ""
    ensures Concat(w) == Render(lines)
  {
    var closed := lines[..|lines| - 1];
    RenderAppend(closed, [Last(lines)]);
    assert closed + [Last(lines)] == lines;
    assert Render([Last(lines)]) == LineText(Last(lines)) by {
      assert [Last(lines)][1..] == [];
    }
    ConcatPair(Render(closed), LineText(Last(lines)));
    if Render(closed) != "" then [Render(closed), LineText(Last(lines))] else [LineText(Last(lines))]
  }

  /** The writes of the translator window: the closed lines joined, written
      only when there is more than one line, then the tail line. */
  function TranslatorWrites(lines: seq<Line>): (w: seq<string>)
    requires |lines| >= 1
    ensures |w| == (if |lines| > 1 then 2 else 1) && Last(w) == LineText(Last(lines))
    ensures Concat(w) == Render(lines)
  {
    var closed := lines[..|lines| - 1];
    RenderAppend(closed, [Last(lines)]);
    assert closed + [Last(lines)] == lines;
    assert Render([Last(lines)]) == LineText(Last(lines)) by {
      assert [Last(lines)][1..] == [];
    }
    ConcatPair(Render(closed), LineText(Last(lines)));
    if |lines| > 1 then [Render(closed), LineText(Last(lines))] else [LineText(Last(lines))]
  }

  // ---------------------------------------------------------------------------
  // update_text

  /** The two language tracks of a window. */
  datatype Panels = Panels(source: Buffer, target: Buffer)

  predicate ValidPanels(p: Panels)
  {
    Valid(p.source) && Valid(p.target)
  }

  /** The service window trims the target buffer to its last 20 lines before
      processing; a deque never needs it. */
  function TrimTarget(b: Buffer): (nb: Buffer)
    requires Valid(b)
    ensures Valid(nb) && nb.capped == b.capped
    ensures |nb.lines| == if |b.lines| > MaxBufferSize then MaxBufferSize else |b.lines|
    ensures nb.lines == b.lines[|b.lines| - |nb.lines|..]
  {
    if |b.lines| > MaxBufferSize then Buffer(b.lines[|b.lines| - MaxBufferSize..], b.capped) else b
  }

  /** `update_text` of the service window: the transcription goes to the
      source buffer, the translation for the target language's key to the
      (trimmed) target buffer. */
  function UpdateText(p: Panels, transcription: Option<SentenceResult>, translation: Option<Translation>,
                      targetLanguage: string): (np: Panels)
    requires ValidPanels(p)
    ensures ValidPanels(np)
    ensures np.source.capped == p.source.capped && np.target.capped == p.target.capped
    // only the target buffer is trimmed: it never exceeds one line over the cap ...
    ensures |np.target.lines| <= MaxBufferSize + 1
    // ... while a plain-list source buffer gains a line on every sentence end
    ensures transcription.None? ==> np.source == p.source
    ensures transcription.Some? && transcription.value.isSentenceEnd && !p.source.capped ==>
      |np.source.lines| == |p.source.lines| + 1
    ensures transcription.Some? && !transcription.value.isSentenceEnd ==>
      |np.source.lines| == |p.source.lines| && Last(np.source.lines) == Partition(transcription.value.words)
    ensures translation.Some? && LangKey(targetLanguage) in translation.value ==>
      var r := translation.value[LangKey(targetLanguage)];
      Last(np.target.lines) == (if r.isSentenceEnd then OpenLine else Partition(r.words))
    ensures translation.None? || LangKey(targetLanguage) !in translation.value ==>
      np.target == TrimTarget(p.target)
    // each present track is processed line for line as `ProcessResult` prescribes
    ensures transcription.Some? ==> np.source == ProcessResult(p.source, transcription.value)
    ensures translation.Some? && LangKey(targetLanguage) in translation.value ==>
      np.target == ProcessResult(TrimTarget(p.target), translation.value[LangKey(targetLanguage)])
  {
    var target := TrimTarget(p.target);
    var source := if transcription.Some? then ProcessResult(p.source, transcription.value) else p.source;
    var key := LangKey(targetLanguage);
    var target' := if translation.Some? && key in translation.value
                   then ProcessResult(target, translation.value[key]) else target;
    Panels(source, target')
  }

  /** `update_text` of the translator window: the translation key is fixed to "zh". */
  function UpdateTextTranslator(source: seq<Line>, target: seq<Line>, transcription: Option<SentenceResult>,
                                translation: Option<Translation>): (res: (seq<Line>, seq<Line>))
    requires |source| >= 1 && |target| >= 1
    ensures |res.0| >= |source| && |res.1| >= |target|
    ensures transcription.None? ==> res.0 == source
    ensures translation.None? || "zh" !in translation.value ==> res.1 == target
    ensures translation.Some? && "zh" in translation.value ==>
      |res.1| == |target| + (if translation.value["zh"].isSentenceEnd then 1 else 0)
    // each present track is updated line for line as one result prescribes
    ensures transcription.Some? ==> TrackUpdated(source, transcription.value, res.0)
    ensures translation.Some? && "zh" in translation.value ==> TrackUpdated(target, translation.value["zh"], res.1)
  {
    var source' := if transcription.Some? then ProcessResultStash(source, transcription.value) else source;
    var target' := if translation.Some? && "zh" in translation.value
                   then ProcessResultStash(target, translation.value["zh"]) else target;
    (source', target')
  }

  // ---------------------------------------------------------------------------
  // Properties over sequences of results

  /** Apply results to one buffer in arrival order. */
  function ApplyAll(b: Buffer, rs: seq<SentenceResult>): Buffer
    requires Valid(b)
    decreases |rs|
  {
    if |rs| == 0 then b else ApplyAll(ProcessResult(b, rs[0]), rs[1..])
  }

  /** Applying any number of results keeps the buffer valid: a deque never holds more than 20 lines. */
  lemma {:induction false} ApplyAllValid(b: Buffer, rs: seq<SentenceResult>)
    requires Valid(b)
    ensures Valid(ApplyAll(b, rs)) && ApplyAll(b, rs).capped == b.capped
    ensures b.capped ==> |ApplyAll(b, rs).lines| <= MaxBufferSize
    decreases |rs|
  {
    if |rs| > 0 {
      ApplyAllValid(ProcessResult(b, rs[0]), rs[1..]);
    }
  }

  predicate NoSentenceEnd(rs: seq<SentenceResult>)
  {
    forall i :: 0 <= i < |rs| ==> !rs[i].isSentenceEnd
  }

  /** Results that do not end a sentence only rewrite the tail line. */
  lemma {:induction false} OpenSentenceKeepsClosedLines(b: Buffer, rs: seq<SentenceResult>)
    requires Valid(b) && NoSentenceEnd(rs)
    ensures |ApplyAll(b, rs).lines| == |b.lines|
    ensures ApplyAll(b, rs).lines[..|b.lines| - 1] == b.lines[..|b.lines| - 1]
    ensures |rs| > 0 ==> Last(ApplyAll(b, rs).lines) == Partition(Last(rs).words)
    decreases |rs|
  {
    if |rs| > 0 {
      var b' := ProcessResult(b, rs[0]);
      assert b'.lines[..|b.lines| - 1] == b.lines[..|b.lines| - 1];
      OpenSentenceKeepsClosedLines(b', rs[1..]);
      if |rs| > 1 {
        assert Last(rs[1..]) == Last(rs);
      }
    }
  }

  /** A whole sentence, whose results end with exactly one sentence end, adds
      exactly one line; the closed line holds the final result's partition and
      every earlier line is untouched (below the deque's cap). */
  lemma {:induction false} SentenceAddsOneLine(b: Buffer, rs: seq<SentenceResult>)
    requires Valid(b) && !(b.capped && |b.lines| == MaxBufferSize)
    requires |rs| >= 1 && NoSentenceEnd(rs[..|rs| - 1]) && Last(rs).isSentenceEnd
    ensures ApplyAll(b, rs).lines == b.lines[..|b.lines| - 1] + [Partition(Last(rs).words), OpenLine]
  {
    var pre := rs[..|rs| - 1];
    ApplyAllSplit(b, pre, [Last(rs)]);
    assert pre + [Last(rs)] == rs;
    OpenSentenceKeepsClosedLines(b, pre);
    ApplyAllValid(b, pre);
    var m := ApplyAll(b, pre);
    ApplyOne(m, Last(rs));
    SentenceEndStep(m, Last(rs));
  }

  lemma ApplyOne(b: Buffer, r: SentenceResult)
    requires Valid(b)
    ensures ApplyAll(b, [r]) == ProcessResult(b, r)
  {
    assert [r][1..] == [];
  }

  /** Below the cap, a sentence-end result closes the tail as its partition
      and opens an empty line. */
  lemma SentenceEndStep(b: Buffer, r: SentenceResult)
    requires Valid(b) && !(b.capped && |b.lines| == MaxBufferSize) && r.isSentenceEnd
    ensures ProcessResult(b, r).lines == b.lines[..|b.lines| - 1] + [Partition(r.words), OpenLine]
  {
    var e := ProcessResult(b, r);
    assert forall i :: 0 <= i < |b.lines| - 1 ==> e.lines[i] == b.lines[i];
  }

  lemma {:induction false} ApplyAllSplit(b: Buffer, xs: seq<SentenceResult>, ys: seq<SentenceResult>)
    requires Valid(b)
    ensures Valid(ApplyAll(b, xs)) && ApplyAll(b, xs + ys) == ApplyAll(ApplyAll(b, xs), ys)
    decreases |xs|
  {
    ApplyAllValid(b, xs);
    if |xs| == 0 {
      assert xs + ys == ys;
    } else {
      assert (xs + ys)[0] == xs[0];
      assert (xs + ys)[1..] == xs[1..] + ys;
      ApplyAllSplit(ProcessResult(b, xs[0]), xs[1..], ys);
    }
  }

  /** On a plain list every sentence end adds a line: nothing bounds it. */
  lemma {:induction false} ListGrowsPerSentence(b: Buffer, rs: seq<SentenceResult>)
    requires Valid(b) && !b.capped
    requires forall i :: 0 <= i < |rs| ==> rs[i].isSentenceEnd
    ensures |ApplyAll(b, rs).lines| == |b.lines| + |rs|
    decreases |rs|
  {
    if |rs| > 0 {
      ListGrowsPerSentence(ProcessResult(b, rs[0]), rs[1..]);
    }
  }

  /** Feeding transcriptions only, one `update_text` call each. */
  function FeedTranscriptions(p: Panels, rs: seq<SentenceResult>, targetLanguage: string): Panels
    requires ValidPanels(p)
    decreases |rs|
  {
    if |rs| == 0 then p else FeedTranscriptions(UpdateText(p, Some(rs[0]), None, targetLanguage), rs[1..], targetLanguage)
  }

  /** After a language change has replaced the deques by plain lists, the
      source buffer grows by one line per sentence end without limit: the
      trim in `update_text` applies to the target buffer only. */
  lemma {:induction false} ListSourceUnbounded(p: Panels, rs: seq<SentenceResult>, targetLanguage: string)
    requires ValidPanels(p) && !p.source.capped
    requires forall i :: 0 <= i < |rs| ==> rs[i].isSentenceEnd
    ensures ValidPanels(FeedTranscriptions(p, rs, targetLanguage))
    ensures |FeedTranscriptions(p, rs, targetLanguage).source.lines| == |p.source.lines| + |rs|
    decreases |rs|
  {
    if |rs| > 0 {
      ListSourceUnbounded(UpdateText(p, Some(rs[0]), None, targetLanguage), rs[1..], targetLanguage);
    }
  }

  /** Twenty-one sentences after a language change leave 22 source lines. */
  lemma ListSourceExceedsCap(r: SentenceResult, targetLanguage: string)
    requires r.isSentenceEnd
    ensures |FeedTranscriptions(Panels(InitialList, InitialList), seq(21, _ => r), targetLanguage).source.lines|
            == 22 > MaxBufferSize
  {
    ListSourceUnbounded(Panels(InitialList, InitialList), seq(21, _ => r), targetLanguage);
  }

  /** The worked example: from one empty line, R1 = 他,好 (fixed) then
      R2 = 他,好,。 (fixed, sentence end) leave [(他好。, ''), ('', '')],
      displayed as 他好。 */
  lemma Example()
    ensures var r1 := SentenceResult([Word("他", true), Word("好", true)], false, None);
            var r2 := SentenceResult([Word("他", true), Word("好", true), Word("。", true)], true, None);
            var b := ApplyAll(InitialCapped, [r1, r2]);
            b.lines == [Line("他好。", ""), OpenLine] && Render(b.lines) == "他好。"
  {
    var r1 := SentenceResult([Word("他", true), Word("好", true)], false, None);
    var r2 := SentenceResult([Word("他", true), Word("好", true), Word("。", true)], true, None);
    var b1 := ProcessResult(InitialCapped, r1);
    assert [r1, r2][1..] == [r2];
    ApplyOne(b1, r2);
    ExamplePartition();
    var b2 := ProcessResult(b1, r2);
    assert b2.lines == [Line("他好。", ""), OpenLine];
    ExampleRender();
  }

  lemma ExamplePartition()
    ensures Partition([Word("他", true), Word("好", true), Word("。", true)]) == Line("他好。", "")
  {
    var ws := [Word("他", true), Word("好", true), Word("。", true)];
    assert ws[1..] == [Word("好", true), Word("。", true)];
    assert ws[1..][1..] == [Word("。", true)];
    assert ws[1..][1..][1..] == [];
  }

  lemma ExampleRender()
    ensures Render([Line("他好。", ""), OpenLine]) == "他好。"
  {
    var ls := [Line("他好。", ""), OpenLine];
    assert ls[1..] == [OpenLine];
    assert ls[1..][1..] == [];
    assert Render([OpenLine]) == "";
    assert LineText(ls[0]) == "他好。";
  }

  /** Replaying a sentence-end result is not idempotent: it closes a second line. */
  lemma ReplayedSentenceEndDuplicates(b: Buffer, r: SentenceResult)
    requires Valid(b) && !b.capped && r.isSentenceEnd
    ensures |ProcessResult(ProcessResult(b, r), r).lines| == |b.lines| + 2
  {
  }
}

=== FILE: service.dfy ===
/**
 The translation service's lifecycle as a sequential state machine. Threads
 become `Worker` records whose liveness is an input, the status messages the
 service posts to the window become a log of `Status` tags, and the capture
 device is a single open/closed flag.
 */
module Service {
  import opened Text
  import opened Reconciler

  /** A background thread: never created, or created and alive or finished. */
  datatype Worker = NotSpawned | Spawned(alive: bool)

  /** The status updates the service posts. */
  datatype Status = Started | Stopped | MissingApiKey | MissingTtsKey | Interrupted

  datatype ServiceState = ServiceState(
    running: bool,
    apiKey: string,
    /** the synthesis key as stored in the configuration */
    ttsApiKey: string,
    enableTts: bool,
    sourceLanguage: string,
    targetLanguage: string,
    asr: Worker,
    tts: Worker,
    deviceOpen: bool,
    log: seq<Status>)

  /** A freshly constructed service, with the configuration's values. */
  function Initial(apiKey: string, ttsApiKey: string, enableTts: bool,
                   sourceLanguage: string, targetLanguage: string): (s: ServiceState)
    ensures !s.running && s.asr == NotSpawned && s.tts == NotSpawned && !s.deviceOpen && s.log == []
    ensures Valid(s)
  {
    ServiceState(false, apiKey, ttsApiKey, enableTts, sourceLanguage, targetLanguage,
                 NotSpawned, NotSpawned, false, [])
  }

  /** A running service has an API key and has created its recognition thread. */
  predicate Valid(s: ServiceState)
  {
    s.running ==> s.apiKey != "" && s.asr.Spawned?
  }

  /** `start`: a no-op while running; without an API key it only reports the
      missing key. Otherwise the service runs, a fresh recognition thread is
      created and, when TTS is enabled, a synthesis thread too, unless the
      synthesis key is empty, which is reported instead. */
  function Start(s: ServiceState): (r: ServiceState)
    ensures s.apiKey == "" ==> r == s.(log := s.log + [MissingApiKey])
    ensures s.running && s.apiKey != "" ==> r == s
    ensures !s.running && s.apiKey != "" ==>
      r.running && r.asr == Spawned(true) && |r.log| > |s.log| && r.log[|s.log|] == Started
      && (s.enableTts && s.ttsApiKey != "" ==> r.tts == Spawned(true) && r.log == s.log + [Started])
      && (s.enableTts && s.ttsApiKey == "" ==> r.log == s.log + [Started, MissingTtsKey])
      && (!s.enableTts ==> r.log == s.log + [Started])
    // the synthesis thread changes only when it is wanted and has a key
    ensures r.tts != s.tts ==> s.enableTts && s.ttsApiKey != "" && !s.running
    // nothing but the run flag, the threads and the log moves
    ensures r.(running := s.running, asr := s.asr, tts := s.tts, log := s.log) == s
    ensures Valid(s) ==> Valid(r)
  {
    if s.running || s.apiKey == "" then
      if s.apiKey == "" then s.(log := s.log + [MissingApiKey]) else s
    else
      var s1 := s.(running := true, log := s.log + [Started], asr := Spawned(true));
      if s.enableTts then
        if s.ttsApiKey == "" then s1.(log := s1.log + [MissingTtsKey])
        else s1.(tts := Spawned(true))
      else s1
  }

  /** `stop`: the service stops and the capture device is closed. The threads
      notice on their own; their liveness is an input of `Observe`. */
  function Stop(s: ServiceState): (r: ServiceState)
    ensures !r.running && !r.deviceOpen && r.log == s.log + [Stopped]
    ensures r.(running := s.running, deviceOpen := s.deviceOpen, log := s.log) == s
    ensures Valid(r)
  {
    s.(running := false, deviceOpen := false, log := s.log + [Stopped])
  }

  /** `on_open` of the recognizer callback: the capture device is opened. */
  function OnOpen(s: ServiceState): (r: ServiceState)
    ensures r.deviceOpen && r.(deviceOpen := s.deviceOpen) == s
    ensures Valid(s) ==> Valid(r)
  {
    s.(deviceOpen := true)
  }

  /** `on_close` of the recognizer callback: the capture device is released. */
  function OnClose(s: ServiceState): (r: ServiceState)
    ensures !r.deviceOpen && r.(deviceOpen := s.deviceOpen) == s
  {
    s.(deviceOpen := false)
  }

  /** The threads' liveness as observed from outside. A thread never created
      stays so. */
  function Observe(s: ServiceState, asrAlive: bool, ttsAlive: bool): (r: ServiceState)
    ensures r.asr.Spawned? == s.asr.Spawned? && r.tts.Spawned? == s.tts.Spawned?
    ensures r.asr.Spawned? ==> r.asr.alive == asrAlive
    ensures r.tts.Spawned? ==> r.tts.alive == ttsAlive
    ensures r.(asr := s.asr, tts := s.tts) == s
    ensures Valid(s) ==> Valid(r)
  {
    s.(asr := if s.asr.Spawned? then Spawned(asrAlive) else NotSpawned,
       tts := if s.tts.Spawned? then Spawned(ttsAlive) else NotSpawned)
  }

  /** A thread that was never created counts as alive; the synthesis thread
      is watched only while TTS is enabled. */
  predicate ThreadsAlive(s: ServiceState)
  {
    (s.asr.Spawned? ==> s.asr.alive) && (s.tts.Spawned? && s.enableTts ==> s.tts.alive)
  }

  /** `check_and_restart`: nothing while stopped; while running with a dead
      watched thread, report the interruption, stop, then start again. */
  function CheckAndRestart(s: ServiceState): (r: ServiceState)
    ensures !s.running || ThreadsAlive(s) ==> r == s
    ensures s.running && !ThreadsAlive(s) ==>
      r == Start(Stop(s.(log := s.log + [Interrupted])))
    ensures Valid(s) && s.running ==> r.running
    ensures Valid(s) ==> Valid(r)
  {
    if s.running && !ThreadsAlive(s) then
      Start(Stop(s.(log := s.log + [Interrupted])))
    else
      s
  }

  /** `set_languages`: both codes must be supported, otherwise nothing changes
      and the answer is false. A running service is restarted so the
      recognizer picks up the new target language. */
  function SetLanguages(s: ServiceState, source: string, target: string): (r: (ServiceState, bool))
    ensures r.1 <==> source in SupportedLanguages && target in SupportedLanguages
    ensures !r.1 ==> r.0 == s
    ensures r.1 ==> r.0.sourceLanguage == source && r.0.targetLanguage == target
    ensures r.1 && !s.running ==> r.0 == s.(sourceLanguage := source, targetLanguage := target)
    ensures r.1 && s.running ==> |r.0.log| > |s.log| && r.0.log[|s.log|] == Stopped
    // a running service is stopped and started again with the new codes
    ensures r.1 && s.running ==> r.0 == Start(Stop(s.(sourceLanguage := source, targetLanguage := target)))
    ensures Valid(s) ==> Valid(r.0) && r.0.running == s.running
  {
    if source in SupportedLanguages && target in SupportedLanguages then
      var s1 := s.(sourceLanguage := source, targetLanguage := target);
      if s.running then (Start(Stop(s1)), true) else (s1, true)
    else
      (s, false)
  }

  // ---------------------------------------------------------------------------
  // Properties relating several operations

  /** Starting twice is starting once, and so is stopping. */
  lemma StartStopIdempotent(s: ServiceState)
    requires s.apiKey != ""
    ensures Start(Start(s)) == Start(s)
    ensures Stop(Stop(s)).(log := s.log) == Stop(s).(log := s.log)
  {
  }

  /** Stop and then start is a restart: the service runs again with a new
      recognition thread, the keys, switch and languages untouched. */
  lemma RestartRuns(s: ServiceState)
    requires s.apiKey != ""
    ensures var r := Start(Stop(s));
      r.running && r.asr == Spawned(true) && !r.deviceOpen
      && r.log[..|s.log| + 2] == s.log + [Stopped, Started]
      && r.apiKey == s.apiKey && r.enableTts == s.enableTts
      && r.sourceLanguage == s.sourceLanguage && r.targetLanguage == s.targetLanguage
  {
    var r := Start(Stop(s));
    assert r.log[..|s.log| + 2] == s.log + [Stopped, Started];
  }

  /** Right after a successful start with every wanted thread created, the
      watchdog leaves the service alone. */
  lemma FreshStartIsAlive(s: ServiceState)
    requires !s.running && s.apiKey != "" && (s.enableTts ==> s.ttsApiKey != "")
    ensures CheckAndRestart(Start(s)) == Start(s)
  {
  }

  /** With TTS switched on, an empty synthesis key and a finished synthesis
      thread left over from an earlier run, the watchdog restarts the service
      on every check: the restart never replaces the finished thread. */
  lemma StaleSynthesisThreadRestartsForever(s: ServiceState)
    requires s.running && s.apiKey != "" && s.enableTts && s.ttsApiKey == ""
    requires s.tts == Spawned(false)
    ensures var r := CheckAndRestart(s);
      r.running && r.tts == Spawned(false) && !ThreadsAlive(r)
      && r.log == s.log + [Interrupted, Stopped, Started, MissingTtsKey]
  {
  }

  /** A restart by the watchdog releases the capture device the old
      recognizer opened; the new recognizer opens it again through `OnOpen`. */
  lemma RestartReleasesDevice(s: ServiceState)
    requires Valid(s) && s.running && !ThreadsAlive(s)
    ensures var r := CheckAndRestart(OnOpen(s));
      r.running && !r.deviceOpen && OnOpen(r).deviceOpen
  {
  }

  /** A successful language change leaves a target whose language key is its
      two-letter prefix, which is the key the recognizer and the display use. */
  lemma SetLanguagesKey(s: ServiceState, source: string, target: string)
    requires SetLanguages(s, source, target).1
    ensures LangKey(SetLanguages(s, source, target).0.targetLanguage) == target[..2]
  {
    SupportedKeyIsPrefix(target);
  }

  // ---------------------------------------------------------------------------
  // The synthesis thread as gummy.py writes it

  /** `start` as gummy.py writes it. The synthesis thread builds its request
      header from a key attribute the service never assigns (only
      `update_api_settings` does, and nothing calls it), so the thread raises
      before its loop. It is modelled as a thread created already finished. */
  function StartAsWritten(s: ServiceState): (r: ServiceState)
    ensures r.(tts := Start(s).tts) == Start(s)
    ensures !s.running && s.apiKey != "" && s.enableTts && s.ttsApiKey != "" ==>
      r.tts == Spawned(false) && r.running && !ThreadsAlive(r)
    ensures !(!s.running && s.apiKey != "" && s.enableTts && s.ttsApiKey != "") ==> r == Start(s)
  {
    var r := Start(s);
    if !s.running && s.apiKey != "" && s.enableTts && s.ttsApiKey != "" then r.(tts := Spawned(false)) else r
  }

  /** `check_and_restart` restarting through `StartAsWritten`. */
  function CheckAndRestartAsWritten(s: ServiceState): (r: ServiceState)
    // it differs from the intended watchdog only in the synthesis thread
    ensures r.(tts := CheckAndRestart(s).tts) == CheckAndRestart(s)
    ensures !s.running || ThreadsAlive(s) ==> r == s
    ensures s.running && !ThreadsAlive(s) ==> r == StartAsWritten(Stop(s.(log := s.log + [Interrupted])))
    ensures Valid(s) && s.running && !ThreadsAlive(s) ==>
      r.running && |r.log| >= |s.log| + 3 && r.log[..|s.log| + 3] == s.log + [Interrupted, Stopped, Started]
  {
    if s.running && !ThreadsAlive(s) then
      var r := StartAsWritten(Stop(s.(log := s.log + [Interrupted])));
      assert s.apiKey != "" ==> r.log[..|s.log| + 3] == s.log + [Interrupted, Stopped, Started];
      r
    else
      s
  }

  /** `n` watchdog ticks of the as-written service. */
  function ChecksAsWritten(s: ServiceState, n: nat): ServiceState
    decreases n
  {
    if n == 0 then s else ChecksAsWritten(CheckAndRestartAsWritten(s), n - 1)
  }

  /** With TTS on and a synthesis key configured, the as-written service is
      restarted on every tick: after `n` ticks it still runs with a dead
      synthesis thread and has posted an interruption, a stop and a start `n`
      times. */
  lemma {:induction false} SynthesisCrashRestartsEveryTick(s: ServiceState, n: nat)
    requires s.running && s.apiKey != "" && s.enableTts && s.ttsApiKey != "" && s.tts == Spawned(false)
    ensures var r := ChecksAsWritten(s, n);
      r.running && r.tts == Spawned(false) && !ThreadsAlive(r)
      && |r.log| == |s.log| + 3 * n
      && r.(log := s.log, asr := s.asr) == s.(deviceOpen := if n == 0 then s.deviceOpen else false)
    decreases n
  {
    if n > 0 {
      var s1 := CheckAndRestartAsWritten(s);
      SynthesisCrashRestartsEveryTick(s1, n - 1);
    }
  }

  /** Right after the as-written start with TTS on and a key, the first tick
      already restarts the service. */
  lemma SynthesisCrashFromStart(s: ServiceState)
    requires !s.running && s.apiKey != "" && s.enableTts && s.ttsApiKey != ""
    ensures var r := StartAsWritten(s);
      r.running && !ThreadsAlive(r) && CheckAndRestartAsWritten(r) != r
  {
  }

  // ---------------------------------------------------------------------------
  // The display queue

  /** `process_queue_safely`: take up to `maxItems` items from the front of
      the queue, stopping early when it is empty. A non-positive `maxItems`
      takes nothing. */
  method ProcessQueueSafely<T>(queue: seq<T>, maxItems: int) returns (processed: seq<T>, rest: seq<T>)
    ensures processed + rest == queue
    ensures |processed| == if maxItems <= 0 then 0 else if maxItems <= |queue| then maxItems else |queue|
  {
    processed := [];
    rest := queue;
    var n := 0;
    while n < maxItems
      invariant processed + rest == queue
      invariant |processed| == n
      invariant maxItems <= 0 ==> n == 0
      invariant n <= maxItems || maxItems <= 0
      decreases maxItems - n
    {
      if |rest| == 0 {
        break;
      }
      processed := processed + [rest[0]];
      rest := rest[1..];
      n := n + 1;
    }
  }

  // ---------------------------------------------------------------------------
  // Applying settings from the window

  /** The language part of `apply_settings` in the window: when either
      configured code differs from the service's, the service's languages are
      set (which may refuse unsupported codes) and both display buffers are
      replaced by fresh plain lists, which drop the 20-line cap. */
  function ApplyLanguageSettings(s: ServiceState, p: Panels, source: string, target: string): (r: (ServiceState, Panels))
    ensures s.sourceLanguage == source && s.targetLanguage == target ==> r == (s, p)
    ensures s.sourceLanguage != source || s.targetLanguage != target ==>
      r.0 == SetLanguages(s, source, target).0 && r.1 == Panels(InitialList, InitialList)
      && !r.1.source.capped && !r.1.target.capped && ValidPanels(r.1)
  {
    if s.sourceLanguage != source || s.targetLanguage != target then
      (SetLanguages(s, source, target).0, Panels(InitialList, InitialList))
    else
      (s, p)
  }

  /** After a language change the source panel holds more lines than the cap:
      twenty-one sentences give twenty-two lines. */
  lemma LanguageChangeLosesCap(s: ServiceState, p: Panels, source: string, target: string, r: SentenceResult)
    requires s.targetLanguage != target && r.isSentenceEnd
    ensures var (_, q) := ApplyLanguageSettings(s, p, source, target);
      |FeedTranscriptions(q, seq(21, _ => r), target).source.lines| > MaxBufferSize
  {
    ListSourceExceedsCap(r, target);
  }
}

=== FILE: synthesis.dfy ===
/**
 The speech-synthesis loop: it takes items from the fixed-word queue, batches
 words into a text buffer, and flushes the buffer as one synthesis request on
 a sentence end or on clause punctuation once the buffer is long enough. The
 HTTP request and the audio device are replaced by an `Outcome` input that
 says what happened to the request.
 */
module Synthesis {
  import opened Text
  import opened Cursor
  import opened Playback

  /** The pause suffix appended to every flushed word. */
  const PauseMarker := "[breath][breath][breath]"

  /** Clause punctuation flushes only when the buffer is longer than this. */
  const FlushLength := 15

  predicate IsClausePunctuation(w: string)
  {
    w == "、" || w == "，" || w == "。"
  }

  /** The flush rule; the length is that of the buffer before the word is added. */
  predicate ShouldFlush(buffer: string, item: TtsItem)
  {
    item.isSentenceEnd || (IsClausePunctuation(item.word) && |buffer| > FlushLength)
  }

  /** What happened to one synthesis request. */
  datatype Outcome =
    /** the request raised before any response was obtained */
    | RequestRaised
    /** a response was obtained; with status 200 its body streamed `chunks`
        and playback completed */
    | Answered(status: int, chunks: seq<Bytes>)
    /** status 200, but opening the device or a write raised after `written` writes */
    | PlaybackRaised(chunks: seq<Bytes>, written: nat)

  /** The effect of taking one item: the new text buffer, the request sent
      (if any) and the writes made to the playback device. */
  datatype Effect = Effect(buffer: string, request: Option<string>, writes: seq<Bytes>)

  function Min(a: nat, b: nat): nat
  {
    if a <= b then a else b
  }

  /** One item taken from the queue. */
  function Step(buffer: string, item: TtsItem, outcome: Outcome): (e: Effect)
    ensures e.request.Some? <==> ShouldFlush(buffer, item)
    ensures e.request.Some? ==> e.request.value == buffer + item.word + PauseMarker
    // no flush: the word is added to the buffer and nothing is sent or played
    ensures !ShouldFlush(buffer, item) ==> e.buffer == buffer + item.word && e.writes == []
    // a response was obtained: the buffer is reset whatever the status
    ensures ShouldFlush(buffer, item) && outcome.Answered? ==> e.buffer == ""
    ensures ShouldFlush(buffer, item) && outcome.Answered? && outcome.status != 200 ==> e.writes == []
    ensures ShouldFlush(buffer, item) && outcome.Answered? && outcome.status == 200 ==>
      Flatten(e.writes) == Flatten(outcome.chunks) && WellChunked(e.writes)
    // an exception escaped: the buffer keeps the flushed text, marker included
    ensures ShouldFlush(buffer, item) && !outcome.Answered? ==> e.buffer == buffer + item.word + PauseMarker
    ensures outcome.RequestRaised? ==> e.writes == []
    ensures ShouldFlush(buffer, item) && outcome.PlaybackRaised? ==>
      |e.writes| <= outcome.written && e.writes <= SplitFixed(Flatten(outcome.chunks))
  {
    if ShouldFlush(buffer, item) then
      var sent := buffer + item.word + PauseMarker;
      match outcome
      case RequestRaised => Effect(sent, Some(sent), [])
      case Answered(status, chunks) =>
        if status == 200 then
          SplitFixedSound(Flatten(chunks));
          Effect("", Some(sent), SplitFixed(Flatten(chunks)))
        else
          Effect("", Some(sent), [])
      case PlaybackRaised(chunks, written) =>
        var all := SplitFixed(Flatten(chunks));
        Effect(sent, Some(sent), all[..Min(written, |all|)])
    else
      Effect(buffer + item.word, None, [])
  }

  /** The loop's state: the text buffer and the fixed-word queue. */
  datatype TtsState = TtsState(buffer: string, queue: seq<TtsItem>)

  /** One iteration of the loop. While TTS is disabled, or the queue is
      empty, nothing is consumed. */
  function Tick(s: TtsState, enabled: bool, outcome: Outcome): (r: (TtsState, Effect))
    ensures !enabled || |s.queue| == 0 ==> r.0 == s && r.1 == Effect(s.buffer, None, [])
    ensures enabled && |s.queue| > 0 ==>
      r.0.queue == s.queue[1..] && r.0.buffer == r.1.buffer
      && (r.1.request.Some? <==> ShouldFlush(s.buffer, s.queue[0]))
    // the head item is handled exactly as one step of the batcher
    ensures enabled && |s.queue| > 0 ==> r.1 == Step(s.buffer, s.queue[0], outcome)
  {
    if enabled && |s.queue| > 0 then
      var e := Step(s.buffer, s.queue[0], outcome);
      (TtsState(e.buffer, s.queue[1..]), e)
    else
      (s, Effect(s.buffer, None, []))
  }

  // ---------------------------------------------------------------------------
  // Runs of the loop

  datatype RunResult = RunResult(buffer: string, requests: seq<string>, flushed: seq<bool>)

  /** Take every item in order, the i-th request meeting `outcomes[i]`. */
  function Run(buffer: string, items: seq<TtsItem>, outcomes: seq<Outcome>): RunResult
    requires |outcomes| == |items|
    decreases |items|
  {
    if |items| == 0 then RunResult(buffer, [], [])
    else
      var e := Step(buffer, items[0], outcomes[0]);
      var rest := Run(e.buffer, items[1..], outcomes[1..]);
      RunResult(rest.buffer, (if e.request.Some? then [e.request.value] else []) + rest.requests,
                [e.request.Some?] + rest.flushed)
  }

  /** The queued words with the pause marker after each word that flushed. */
  function Spoken(items: seq<TtsItem>, flushed: seq<bool>): string
    requires |flushed| == |items|
  {
    if |items| == 0 then ""
    else items[0].word + (if flushed[0] then PauseMarker else "") + Spoken(items[1..], flushed[1..])
  }

  function CountTrue(bs: seq<bool>): nat
  {
    if |bs| == 0 then 0 else (if bs[0] then 1 else 0) + CountTrue(bs[1..])
  }

  predicate AllAnswered(outcomes: seq<Outcome>)
  {
    forall i :: 0 <= i < |outcomes| ==> outcomes[i].Answered?
  }

  /** In any run, each item either flushes or not; a sentence end always
      flushes, only a sentence end or clause punctuation can, and there is one
      request per flush. */
  lemma {:induction false} RunFlushes(buffer: string, items: seq<TtsItem>, outcomes: seq<Outcome>)
    requires |outcomes| == |items|
    ensures var r := Run(buffer, items, outcomes);
      |r.flushed| == |items| && |r.requests| == CountTrue(r.flushed)
      && (forall i :: 0 <= i < |items| && items[i].isSentenceEnd ==> r.flushed[i])
      && (forall i :: 0 <= i < |items| && r.flushed[i] ==>
            items[i].isSentenceEnd || IsClausePunctuation(items[i].word))
    decreases |items|
  {
    if |items| > 0 {
      var e := Step(buffer, items[0], outcomes[0]);
      RunFlushes(e.buffer, items[1..], outcomes[1..]);
      var rest := Run(e.buffer, items[1..], outcomes[1..]);
      var r := Run(buffer, items, outcomes);
      assert r.flushed[1..] == rest.flushed;
      forall i | 0 <= i < |items| && items[i].isSentenceEnd ensures r.flushed[i] {
        if i > 0 {
          assert items[i] == items[1..][i - 1];
        }
      }
      forall i | 0 <= i < |items| && r.flushed[i] ensures items[i].isSentenceEnd || IsClausePunctuation(items[i].word) {
        if i > 0 {
          assert items[i] == items[1..][i - 1];
        }
      }
    }
  }

  /** While every request obtains a response, no text is lost or repeated:
      the requests sent, followed by what is still buffered, are the initial
      buffer followed by every queued word, with one pause marker after each
      word that flushed. */
  lemma {:induction false} RunConservesText(buffer: string, items: seq<TtsItem>, outcomes: seq<Outcome>)
    requires |outcomes| == |items| && AllAnswered(outcomes)
    ensures var r := Run(buffer, items, outcomes);
      |r.flushed| == |items| && Concat(r.requests) + r.buffer == buffer + Spoken(items, r.flushed)
    decreases |items|
  {
    if |items| > 0 {
      var e := Step(buffer, items[0], outcomes[0]);
      assert AllAnswered(outcomes[1..]) by {
        forall i | 0 <= i < |outcomes[1..]| ensures outcomes[1..][i].Answered? {
          assert outcomes[1..][i] == outcomes[i + 1];
        }
      }
      RunConservesText(e.buffer, items[1..], outcomes[1..]);
      var rest := Run(e.buffer, items[1..], outcomes[1..]);
      var r := Run(buffer, items, outcomes);
      assert r.flushed[1..] == rest.flushed;
      var flush := e.request.Some?;
      assert e.buffer == (if flush then "" else buffer + items[0].word);
      assert Spoken(items, r.flushed) ==
        items[0].word + (if flush then PauseMarker else "") + Spoken(items[1..], rest.flushed);
      assert r.requests == (if flush then [buffer + items[0].word + PauseMarker] else []) + rest.requests;
      var tail := Spoken(items[1..], rest.flushed);
      if flush {
        assert "" + tail == tail;
        ConcatFlushStep(buffer + items[0].word + PauseMarker, buffer, items[0].word, PauseMarker,
                        rest.requests, rest.buffer, tail);
      } else {
        ConcatKeepStep(buffer, items[0].word, rest.requests, rest.buffer, tail);
      }
    }
  }

  /** The string algebra of a flushing step of `RunConservesText`, for any marker `m`. */
  lemma ConcatFlushStep(h: string, b: string, w: string, m: string,
                        restRequests: seq<string>, restBuffer: string, tail: string)
    requires h == b + w + m && Concat(restRequests) + restBuffer == tail
    ensures Concat([h] + restRequests) + restBuffer == b + (w + m + tail)
  {
    ConcatCons(h, restRequests);
    assert Concat([h] + restRequests) + restBuffer == h + (Concat(restRequests) + restBuffer);
  }

  /** The string algebra of a step that only buffers its word. */
  lemma ConcatKeepStep(b: string, w: string, restRequests: seq<string>, restBuffer: string, tail: string)
    requires Concat(restRequests) + restBuffer == b + w + tail
    ensures Concat([] + restRequests) + restBuffer == b + (w + "" + tail)
  {
    assert [] + restRequests == restRequests;
    assert w + "" == w;
  }

  /** Short words and a clause mark do not flush while the buffer is at most
      15 characters long; the same mark flushes at once after a longer buffer. */
  lemma FlushThreshold()
    ensures var items := [TtsItem("A", false), TtsItem("B", false), TtsItem("，", false), TtsItem("C", false)];
      var outcomes := [RequestRaised, RequestRaised, RequestRaised, RequestRaised];
      Run("", items, outcomes).requests == [] && Run("", items, outcomes).buffer == "AB，C"
    ensures Step("0123456789abcdef", TtsItem("，", false), Answered(500, [])).request
            == Some("0123456789abcdef" + "，" + PauseMarker)
    ensures Step("0123456789abcde", TtsItem("，", false), Answered(500, [])).request == None
    ensures Step("", SentenceEndMarker, Answered(200, [])).request == Some(PauseMarker)
  {
    var items := [TtsItem("A", false), TtsItem("B", false), TtsItem("，", false), TtsItem("C", false)];
    var outcomes := [RequestRaised, RequestRaised, RequestRaised, RequestRaised];
    assert items[1..] == [TtsItem("B", false), TtsItem("，", false), TtsItem("C", false)];
    assert items[1..][1..] == [TtsItem("，", false), TtsItem("C", false)];
    assert items[1..][1..][1..] == [TtsItem("C", false)];
    assert items[1..][1..][1..][1..] == [];
    assert "A" + "B" + "，" + "C" == "AB，C";
    assert |"0123456789abcdef"| == 16 && |"0123456789abcde"| == 15;
    assert "" + "" + PauseMarker == PauseMarker;
  }
}

=== FILE: text.dfy ===
/**
 Words and incremental results as the realtime recognition-and-translation
 service delivers them, the fixed/unfixed partition of a word list, and the
 language-key derivation used to pick a translation out of a result.
 */
module Text {

  datatype Option<+T> = None | Some(value: T)

  /** One recognised or translated token. A fixed word will not be revised. */
  datatype Word = Word(text: string, fixed: bool)

  /** One incremental result for the sentence in progress: the full word list
      (a replacement, not a delta), the sentence-end flag and, in the
      translator variant, an optional stash of words that overwrites the tail
      line once more. */
  datatype SentenceResult = SentenceResult(words: seq<Word>, isSentenceEnd: bool, stash: Option<seq<Word>>)

  /** A translation result maps a language key ("zh", "en", ...) to the
      result for that language; a missing key is `get_translation` returning None. */
  type Translation = map<string, SentenceResult>

  function Last<T>(s: seq<T>): T
    requires |s| >= 1
  {
    s[|s| - 1]
  }

  function Concat(ss: seq<string>): string
  {
    if |ss| == 0 then "" else ss[0] + Concat(ss[1..])
  }

  lemma ConcatPair(x: string, y: string)
    ensures Concat([x]) == x && Concat([x, y]) == x + y
  {
    assert [x, y][1..] == [y];
    assert [x][1..] == [] && [y][1..] == [];
    assert Concat([y]) == y;
  }

  lemma ConcatCons(x: string, rest: seq<string>)
    ensures Concat([x] + rest) == x + Concat(rest)
  {
    assert ([x] + rest)[1..] == rest;
  }

  /** Texts of all words, in order. */
  function Texts(ws: seq<Word>): seq<string>
  {
    if |ws| == 0 then [] else [ws[0].text] + Texts(ws[1..])
  }

  /** Concatenation of the texts of the fixed words, in order. */
  function FixedText(ws: seq<Word>): string
  {
    if |ws| == 0 then "" else (if ws[0].fixed then ws[0].text else "") + FixedText(ws[1..])
  }

  /** Concatenation of the texts of the unfixed words, in order. */
  function UnfixedText(ws: seq<Word>): string
  {
    if |ws| == 0 then "" else (if ws[0].fixed then "" else ws[0].text) + UnfixedText(ws[1..])
  }

  /** The words whose `fixed` flag equals `f`, in their original order. */
  function Select(ws: seq<Word>, f: bool): seq<Word>
  {
    if |ws| == 0 then [] else (if ws[0].fixed == f then [ws[0]] else []) + Select(ws[1..], f)
  }

  /** The fixed part is the concatenated texts of the fixed subsequence. */
  lemma {:induction false} FixedTextIsSelection(ws: seq<Word>)
    ensures FixedText(ws) == Concat(Texts(Select(ws, true)))
  {
    if |ws| > 0 {
      FixedTextIsSelection(ws[1..]);
      if ws[0].fixed {
        assert Select(ws, true) == [ws[0]] + Select(ws[1..], true);
        assert Texts(Select(ws, true)) == [ws[0].text] + Texts(Select(ws[1..], true));
      } else {
        assert Select(ws, true) == Select(ws[1..], true);
      }
    }
  }

  /** The unfixed part is the concatenated texts of the unfixed subsequence. */
  lemma {:induction false} UnfixedTextIsSelection(ws: seq<Word>)
    ensures UnfixedText(ws) == Concat(Texts(Select(ws, false)))
  {
    if |ws| > 0 {
      UnfixedTextIsSelection(ws[1..]);
      if !ws[0].fixed {
        assert Select(ws, false) == [ws[0]] + Select(ws[1..], false);
        assert Texts(Select(ws, false)) == [ws[0].text] + Texts(Select(ws[1..], false));
      } else {
        assert Select(ws, false) == Select(ws[1..], false);
      }
    }
  }

  /** Together the two parts hold every character of the word list exactly once. */
  lemma {:induction false} PartitionKeepsCharacters(ws: seq<Word>)
    ensures multiset(FixedText(ws)) + multiset(UnfixedText(ws)) == multiset(Concat(Texts(ws)))
  {
    if |ws| > 0 {
      PartitionKeepsCharacters(ws[1..]);
      assert Texts(ws) == [ws[0].text] + Texts(ws[1..]);
      assert Concat(Texts(ws)) == ws[0].text + Concat(Texts(ws[1..]));
    }
  }

  /** When every word is fixed the fixed part is the whole text and nothing is provisional. */
  lemma {:induction false} AllFixedPartition(ws: seq<Word>)
    requires forall i :: 0 <= i < |ws| ==> ws[i].fixed
    ensures FixedText(ws) == Concat(Texts(ws))
    ensures UnfixedText(ws) == ""
  {
    if |ws| > 0 {
      AllFixedPartition(ws[1..]);
    }
  }

  // ---------------------------------------------------------------------------
  // Language codes

  /** `str.lower()` restricted to ASCII letters. */
  function LowerChar(c: char): char
  {
    if 'A' <= c <= 'Z' then (c as int + 32) as char else c
  }

  /** `code.split('-')[0].lower()`: the part before the first '-', lower-cased. */
  function LangKey(code: string): (key: string)
    ensures |key| <= |code|
    ensures forall i :: 0 <= i < |key| ==> code[i] != '-' && key[i] == LowerChar(code[i])
    ensures |key| == |code| || code[|key|] == '-'
  {
    if |code| == 0 || code[0] == '-' then "" else [LowerChar(code[0])] + LangKey(code[1..])
  }

  /** The language codes the service accepts, with their display names. */
  const SupportedLanguages: map<string, string> := map[
    "zh-CN" := "中文",
    "en-US" := "英文",
    "ja-JP" := "日语",
    "ko-KR" := "韩语",
    "fr-FR" := "法语",
    "de-DE" := "德语",
    "es-ES" := "西班牙语",
    "ru-RU" := "俄语",
    "it-IT" := "意大利语",
    "pt-PT" := "葡萄牙语"
  ]

  /** A supported code of shape "ll-CC" has the key "ll". */
  lemma TwoLetterKey(code: string)
    requires |code| == 5 && code[2] == '-'
    requires code[0] != '-' && code[1] != '-'
    ensures LangKey(code) == [LowerChar(code[0]), LowerChar(code[1])]
  {
    var k := LangKey(code);
    assert |k| == 2;
  }

  /** The shape "ll-CC" with a lower-case language part. */
  predicate LanguageCountryShape(code: string)
  {
    |code| == 5 && code[2] == '-' && 'a' <= code[0] <= 'z' && 'a' <= code[1] <= 'z'
  }

  lemma SupportedShape(code: string)
    requires code in SupportedLanguages
    ensures LanguageCountryShape(code)
  {
    if code == "zh-CN" {} else if code == "en-US" {} else if code == "ja-JP" {}
    else if code == "ko-KR" {} else if code == "fr-FR" {} else if code == "de-DE" {}
    else if code == "es-ES" {} else if code == "ru-RU" {} else if code == "it-IT" {}
    else {
      assert code == "pt-PT";
    }
  }

  /** Every supported language code has the shape "ll-CC", so its language
      key is its two-letter lower-case language prefix. */
  lemma SupportedKeyIsPrefix(code: string)
    requires code in SupportedLanguages
    ensures LangKey(code) == code[..2]
    ensures |LangKey(code)| == 2 && '-' !in LangKey(code)
  {
    SupportedShape(code);
    TwoLetterKey(code);
  }
}

=== FILE: window.dfy ===
/**
 The keyboard handling of the translator's floating subtitle window: Alt+T
 switches between the light and dark scheme, Alt+Up and Alt+Down step the
 panel's background alpha by 20 within [0, 255], Alt+S switches speech
 synthesis and empties the fixed-word queue when it switches it on, and
 Ctrl+H shows or hides the title bar. The background brightness follows the
 alpha as 255 - alpha.
 */
module Window {
  import opened Cursor

  /** The keys the handler tells apart; a letter is its character code. */
  datatype Key = Letter(c: char) | ArrowUp | ArrowDown | OtherKey

  datatype KeyEvent = KeyEvent(key: Key, alt: bool, control: bool)

  /** The window's settings, with the synthesis switch and the fixed-word
      queue, which are shared with the recognition and synthesis threads. */
  datatype WindowState = WindowState(
    alpha: int,
    brightness: int,
    darkMode: bool,
    hasTitlebar: bool,
    enableTts: bool,
    fixedWords: seq<TtsItem>)

  const AlphaStep := 20

  /** At construction: light scheme, alpha 0, speech synthesis off. */
  const InitialWindow := WindowState(0, 255, false, true, false, [])

  /** The alpha is a colour channel and the brightness is its complement. */
  predicate Valid(w: WindowState)
  {
    0 <= w.alpha <= 255 && w.brightness == 255 - w.alpha
  }

  /** `set_panel_alpha`: record the alpha and recompute the brightness. */
  function SetPanelAlpha(w: WindowState, alpha: int): (r: WindowState)
    ensures r.alpha == alpha && r.brightness + r.alpha == 255
    ensures 0 <= alpha <= 255 ==> Valid(r) && 0 <= r.brightness <= 255
    ensures r.(alpha := w.alpha, brightness := w.brightness) == w
  {
    w.(alpha := alpha, brightness := 255 - alpha)
  }

  /** `toggle_color_mode`: the dark scheme uses alpha 255 (a black panel), the
      light scheme alpha 0 (a white panel), whatever the alpha was. */
  function ToggleColorMode(w: WindowState): (r: WindowState)
    ensures r.darkMode == !w.darkMode
    ensures r.darkMode ==> r.alpha == 255 && r.brightness == 0
    ensures !r.darkMode ==> r.alpha == 0 && r.brightness == 255
    ensures Valid(r)
    ensures r.(alpha := w.alpha, brightness := w.brightness, darkMode := w.darkMode) == w
  {
    var w1 := w.(darkMode := !w.darkMode);
    if w1.darkMode then SetPanelAlpha(w1, 255) else SetPanelAlpha(w1, 0)
  }

  function Min(a: int, b: int): int { if a <= b then a else b }

  function Max(a: int, b: int): int { if a <= b then b else a }

  predicate IsLetter(k: Key, upper: char, lower: char)
  {
    k == Letter(upper) || k == Letter(lower)
  }

  /** `on_key_press`: the new state, and whether the event is passed on
      (skipped) because no shortcut took it. */
  function OnKeyPress(w: WindowState, e: KeyEvent): (r: (WindowState, bool))
    ensures e.alt && IsLetter(e.key, 'T', 't') ==> r == (ToggleColorMode(w), false)
    ensures e.alt && e.key == ArrowUp ==> r == (SetPanelAlpha(w, Min(255, w.alpha + AlphaStep)), false)
    ensures e.alt && e.key == ArrowDown ==> r == (SetPanelAlpha(w, Max(0, w.alpha - AlphaStep)), false)
    // Alt+S flips the switch, and switching on empties the queue
    ensures e.alt && IsLetter(e.key, 'S', 's') ==>
      !r.1 && r.0.enableTts == !w.enableTts
      && r.0.fixedWords == (if r.0.enableTts then [] else w.fixedWords)
      && r.0.(enableTts := w.enableTts, fixedWords := w.fixedWords) == w
    // a key the handler does not take changes nothing and is passed on
    ensures r.1 <==> r.0 == w && !(e.control && IsLetter(e.key, 'H', 'h'))
                     && !(e.alt && (IsLetter(e.key, 'T', 't') || IsLetter(e.key, 'S', 's')
                                    || e.key == ArrowUp || e.key == ArrowDown))
    // Ctrl+H, when no Alt shortcut takes the event, only toggles the title bar
    ensures e.control && IsLetter(e.key, 'H', 'h')
            && !(e.alt && (IsLetter(e.key, 'T', 't') || IsLetter(e.key, 'S', 's')
                           || e.key == ArrowUp || e.key == ArrowDown)) ==>
      r == (w.(hasTitlebar := !w.hasTitlebar), false)
    // any other key changes nothing and is passed on
    ensures !(e.control && IsLetter(e.key, 'H', 'h'))
            && !(e.alt && (IsLetter(e.key, 'T', 't') || IsLetter(e.key, 'S', 's')
                           || e.key == ArrowUp || e.key == ArrowDown)) ==>
      r == (w, true)
    ensures Valid(w) ==> Valid(r.0)
  {
    if e.alt && IsLetter(e.key, 'T', 't') then (ToggleColorMode(w), false)
    else if e.alt && (e.key == ArrowUp || e.key == ArrowDown) then
      var a := if e.key == ArrowUp then Min(255, w.alpha + AlphaStep) else Max(0, w.alpha - AlphaStep);
      (SetPanelAlpha(w, a), false)
    else if e.alt && IsLetter(e.key, 'S', 's') then
      var on := !w.enableTts;
      (w.(enableTts := on, fixedWords := if on then [] else w.fixedWords), false)
    else if e.control && IsLetter(e.key, 'H', 'h') then
      (w.(hasTitlebar := !w.hasTitlebar), false)
    else
      (w, true)
  }

  /** The state after a run of key events. */
  function PressAll(w: WindowState, es: seq<KeyEvent>): WindowState
    decreases |es|
  {
    if |es| == 0 then w else PressAll(OnKeyPress(w, es[0]).0, es[1..])
  }

  /** Whatever keys are pressed from the initial window, the alpha stays in
      [0, 255] and the brightness is 255 - alpha, so both are valid colour channels. */
  lemma {:induction false} KeysKeepAlphaInRange(w: WindowState, es: seq<KeyEvent>)
    requires Valid(w)
    ensures Valid(PressAll(w, es))
    ensures 0 <= PressAll(w, es).brightness <= 255
    decreases |es|
  {
    if |es| > 0 {
      KeysKeepAlphaInRange(OnKeyPress(w, es[0]).0, es[1..]);
    }
  }

  lemma InitialKeysKeepAlphaInRange(es: seq<KeyEvent>)
    ensures Valid(PressAll(InitialWindow, es))
  {
    KeysKeepAlphaInRange(InitialWindow, es);
  }

  /** Alt+Down undoes Alt+Up unless the clamp at 255 cut the step short, and
      Alt+Up undoes Alt+Down unless the clamp at 0 did. */
  lemma StepsUndo(w: WindowState)
    requires Valid(w)
    ensures w.alpha <= 255 - AlphaStep ==>
      OnKeyPress(OnKeyPress(w, KeyEvent(ArrowUp, true, false)).0, KeyEvent(ArrowDown, true, false)).0 == w
    ensures w.alpha >= AlphaStep ==>
      OnKeyPress(OnKeyPress(w, KeyEvent(ArrowDown, true, false)).0, KeyEvent(ArrowUp, true, false)).0 == w
    ensures OnKeyPress(OnKeyPress(w, KeyEvent(ArrowUp, true, false)).0, KeyEvent(ArrowDown, true, false)).0.alpha
            == (if w.alpha <= 255 - AlphaStep then w.alpha else 255 - AlphaStep)
  {
  }

  /** Thirteen presses of Alt+Up from the initial window reach 255 (the last
      one clamped), and a further press stays there. */
  lemma AlphaSaturates()
    ensures PressAll(InitialWindow, seq(13, _ => KeyEvent(ArrowUp, true, false))).alpha == 255
    ensures PressAll(InitialWindow, seq(14, _ => KeyEvent(ArrowUp, true, false))).alpha == 255
  {
    UpsFrom(InitialWindow, 13);
    UpsFrom(InitialWindow, 14);
  }

  /** n presses of Alt+Up add 20 per press, up to 255. */
  lemma {:induction false} UpsFrom(w: WindowState, n: nat)
    requires Valid(w)
    ensures PressAll(w, seq(n, _ => KeyEvent(ArrowUp, true, false))).alpha == Min(255, w.alpha + AlphaStep * n)
    decreases n
  {
    var es := seq(n, _ => KeyEvent(ArrowUp, true, false));
    if n > 0 {
      assert es[1..] == seq(n - 1, _ => KeyEvent(ArrowUp, true, false));
      UpsFrom(OnKeyPress(w, es[0]).0, n - 1);
    }
  }

  /** Pressing Alt+S twice restores the switch; the queue is empty afterwards
      whenever the switch ends on. */
  lemma ToggleTwice(w: WindowState)
    ensures var s := KeyEvent(Letter('S'), true, false);
      var w2 := OnKeyPress(OnKeyPress(w, s).0, s).0;
      w2.enableTts == w.enableTts && (w2.enableTts ==> w2.fixedWords == [])
      && (!w2.enableTts ==> w2.fixedWords == OnKeyPress(w, s).0.fixedWords)
  {
  }
}
